=== FILE: README.md ===
# Astra memory core in Dafny

Astra is a chat assistant. It keeps a per-user memory table of things the user asked it to remember and feelings the user expressed. Each memory is a row: owner, subject, value, an emotional score in [-1, 1], a decay rate, a type, and creation and last-access times. Type 0 is a fact and type 1 is a feeling. Every conversational turn does four things:

- It decays the scores of all feeling memories.
- It scores the new prompt against a small emotion lexicon.
- It retrieves the user's most relevant memories. Relevance is the score damped by age over a 30-day window.
- It decides whether to store the prompt, evicting the user's least recently accessed memories beyond 10 000 rows.

A user can also forget every memory that mentions a keyword.

This project models that memory logic over an immutable table, and proves what each operation guarantees.

- **Table.** The table is a `seq<Memory>` in rowid order.
- **Time.** Times are whole seconds.
- **Scores.** Scores are `real`s.
- **Decay curve.** The exponential decay curve is a parameter `atten(score, rate, hours)`. The decay laws are stated for any curve that composes over elapsed time, as `exp` does.
- **Lower-casing and word characters.** `Lower` and `IsWordChar` are the ASCII versions of the lower-casing and the `\w` class used by the program.
- **Pattern search.** The predicates `Emotion.MatchesAt` and `Emotion.Matches` define `re.search(r'\b…\b', text, re.IGNORECASE)` at Astra.py:81. The pattern must occur in the lower-cased text, and it must have no word character immediately before or after it.

Modules:

- **`Text`**: ASCII lower-casing, substring search, prefixes and truncation.
- **`Records`**: the row datatype, per-user views (`OfUser`, `Others`, `CountUser`), the next rowid, and the generic filter `Discard`.
- **`Emotion`**: `calculate_emotion` and the emotion lexicon.
- **`Store`**: insertion with capacity eviction (`store_memory`) and keyword forgetting (`forget_memory`).
- **`WritePolicy`**: `store_if_appropriate`.
- **`Decay`**: `update_memory_decay`, as written and corrected.
- **`Ranking`**: `get_relevant_memories`.

## Model

| member | source | states |
|---|---|---|
| Emotion.LexiconShape | Astra.py:63-68 | the lexicon has four categories, joy is the only one with a positive weight, and every weight is non-zero and strictly inside (-1, 1) |
| Emotion.LexiconIsLowerCase | Astra.py:63-68 | every pattern is already lower-case, so comparing it with the lower-cased text is matching with `re.IGNORECASE` |
| Emotion.LexiconWordFramed | Astra.py:64-67 | every pattern is non-empty and begins and ends with a word character, so `\b` on both sides means "not inside a longer word" |
| Emotion.FramedMatches | Astra.py:81 | for a pattern that begins and ends with a word character, surrounding the text with one non-word character on each side changes no match: the text's ends act as `\b` boundaries just as non-word characters do |
| Emotion.PaddingKeepsMatches | Astra.py:81 | such a pattern matches a text exactly when it matches the text padded with a space on each side |
| Emotion.PaddingKeepsEmotion | Astra.py:77-83 | padding a prompt with spaces never changes its score |
| Emotion.NoMatchNeutral | Astra.py:78-82 | for any list of categories, if no pattern matches then the summed weights are 0 |
| Emotion.ZeroCountsNeutral | Astra.py:78-82 | categories that each count no match add up to 0 |
| Emotion.CalculateEmotion | Astra.py:77-83 | the score of any text lies in [-1, 1], and a text that matches no pattern of the lexicon scores exactly 0 |
| Emotion.ClampedScore | Astra.py:83 | the score is the raw weighted sum when that sum is within [-1, 1], and -1 or 1 when the sum lies beyond that bound |
| Emotion.Clamp | Astra.py:83 | clamping lands in [-1, 1], keeps values already inside, and sends values beyond either bound to that bound |
| Emotion.MatchCountExtremes | Astra.py:79-82 | a category counts no match exactly when none of its patterns matches, and a full count exactly when all of them match |
| Emotion.MatchCountAppend | Astra.py:80-82 | the patterns of a category are counted independently of one another, so counts over concatenated pattern lists add up |
| Emotion.SameMatchesSameEmotion | Astra.py:77-83 | two texts that match the same set of patterns get the same score, so repeating a word never changes the score |
| Emotion.MatchesIgnoresCase | Astra.py:81 | a pattern matches a text exactly when it matches the text's lower-cased form, word boundaries included |
| Emotion.EmotionIgnoresCase | Astra.py:81 | a text and its lower-cased form get the same score |
| Emotion.MatchIsContained | Astra.py:81 | a word-boundary match implies that the pattern occurs in the lower-cased text |
| Emotion.NoPositiveMatchNotPositive | Astra.py:77-83 | if no pattern of a positively weighted category matches, the raw sum is at most 0 |
| Emotion.NoJoyNotPositive | Astra.py:63-68 | joy is the only positive category, so a text with no joy word never scores above 0 |
| Emotion.ScaredAndNervousExample | Astra.py:64 | "I feel scared and nervous" matches exactly two fear patterns and no other pattern, so the raw sum is -1.6, which clamps to -1.0 |
| Emotion.WordBoundaryExample | Astra.py:64 | "scaredy" matches no pattern, because `\bscared\b` needs a non-word character after "scared", so it scores 0 |
| Records.NextId | Astra.py:49 | a new rowid is positive and larger than the id of every existing row |
| Store.Insert | Astra.py:98-101 | inserting appends one row and leaves every earlier row in place. The row has a fresh id, the user, subject, value, score and type, the default decay rate 0.05, and `now` as both timestamps, as in the column defaults at lines 53-57. The user's count rises by one, other users' rows are untouched and ids stay unique |
| Store.OldestIndex | Astra.py:111-113 | the chosen row belongs to the user and has the least `last_accessed` among that user's rows; ties go to the earliest row |
| Store.EvictOldest | Astra.py:107-116 | deleting min(k, count) rows of the user removes only that user's rows, each no more recently accessed than any of the user's remaining rows; the deleted and remaining rows together are exactly the original rows; other users and unique ids are preserved |
| Store.EnforceCapacity | Astra.py:103-116 | a user within the cap is untouched; a user over it is cut to exactly the cap by deleting only their least recently accessed rows; nothing else changes |
| Store.StoreMemory | Astra.py:97-118 | after storing, the user holds at most 10 000 rows. Below the cap the row is simply appended. At or over the cap the user ends at exactly 10 000. The result is always the inserted table less some of the user's rows, each accessed no more recently than any of the user's remaining rows. The new row is dropped only when no remaining row of the user was accessed before `now`. Other users and unique ids are preserved |
| Store.ForgetMemory | Astra.py:119-129 | a row survives forgetting exactly when it was present and is not a row of the user whose lower-cased subject or value contains the lower-cased keyword |
| Store.ForgetKeepsTheRest | Astra.py:121-128 | every surviving row keeps its multiplicity, every forgettable row loses all its copies, other users' rows are unchanged in order, and ids stay unique |
| Store.ForgetIdempotent | Astra.py:119-129 | forgetting the same keyword twice deletes nothing more than forgetting it once |
| Store.ForgetLeavesNoMatch | Astra.py:122-128 | afterwards no row of the user mentions the keyword in its subject or value, ignoring case |
| Text.Truncate | Astra.py:135 | the subject is a prefix of the prompt of length min(length, 60), and the whole prompt when it is short enough |
| WritePolicy.WriteDecision | Astra.py:131-135 | a prompt is kept exactly when its lower-cased form starts with "remember " or contains "i feel" or "i'm feeling"; a kept prompt is a feeling exactly when it contains "i feel"; it carries the response and score unchanged under a subject that is the prompt's first 60 characters |
| WritePolicy.StoreIfAppropriate | Astra.py:131-135 | a skipped prompt leaves the table unchanged. A kept one is inserted as decided, and only the user's least recently accessed rows are then evicted. The new row survives unless no remaining row of the user is older. The user stays within the cap, and a user at or over the cap ends at exactly 10 000 rows. Other users are untouched and ids stay unique |
| WritePolicy.DecisionIgnoresCase | Astra.py:132-134 | whether a prompt is kept, and as which type, does not depend on its case |
| WritePolicy.ImFeelingIsAFact | Astra.py:133-134 | "I'm feeling great" is kept, but as a fact that never decays, because it does not contain "i feel" |
| WritePolicy.SubstringIFeelIsAFeeling | Astra.py:133-134 | "Sushi feels great" is kept as a feeling, because "i feel" is found as a bare substring across the word boundary |
| WritePolicy.RememberIsAFact | Astra.py:133-135 | "Remember my name is Ada" is kept as a fact under its own text as subject |
| WritePolicy.BareRememberIsSkipped | Astra.py:133 | the bare word "Remember" is not stored, because the trigger needs the trailing space |
| WritePolicy.LongSubjectIsCut | Astra.py:135 | a kept prompt longer than 60 characters is stored under exactly its first 60 characters |
| Decay.WholeHours | Astra.py:90 | the elapsed hours are the seconds divided by 3600 and truncated toward zero, for both signs |
| Decay.ExactHours | Astra.py:90 | the corrected elapsed hours times 3600 are exactly the elapsed seconds |
| Decay.UpdateMemoryDecay | Astra.py:85-95 | as written, the sweep keeps every fact row as it is, and gives every feeling the score attenuated by the whole hours since its last access, with `last_accessed = now`, changing nothing else |
| Decay.UpdateMemoryDecayExact | Astra.py:85-95 | the corrected sweep is the same, except that a feeling is attenuated by the exact real hours since its last access |
| Decay.Sweep | Astra.py:85-95 | a sweep keeps the table's length and order; it leaves facts untouched; it gives every feeling the attenuated score for its elapsed hours and `last_accessed = now`, and changes nothing else in the row |
| Decay.SweepKeepsIdentity | Astra.py:86-93 | a sweep never changes a row's id, owner, subject, value, type or creation time |
| Decay.SweepKeepsCountsAndKeys | Astra.py:86-93 | a sweep changes no user's row count, and keeps ids unique exactly when they were unique before |
| Decay.FactsNeverDecay | Astra.py:93 | after any number of sweeps at any times, every fact row is exactly as it was |
| Decay.TwoSweepsAreOne | Astra.py:85-95 | with real elapsed hours and a composing curve, a sweep at t1 followed by one at t2 equals a single sweep at t2 |
| Decay.SweepsCompose | Astra.py:85-95 | with real elapsed hours and a composing curve, any series of sweeps equals a single sweep at the last time, so the score depends only on the total elapsed time |
| Decay.SweepWithinTheHourKeepsScores | Astra.py:90 | as written, a sweep less than an hour after every feeling's last access changes no score |
| Decay.FrequentSweepsFreezeFeelings | Astra.py:85-95 | as written, sweeps less than an hour apart leave every score unchanged, however long the series runs |
| Decay.HalfHourSweepsLoseDecay | Astra.py:90 | as written, a feeling swept at 30 and 60 minutes keeps score 1.0, while a single sweep at 60 minutes gives 0.95 under linear attenuation |
| Decay.HalfHourSweepsExact | Astra.py:90 | with real elapsed hours the two half-hour sweeps give 0.95, the same as one sweep an hour later |
| Ranking.AgeDays | Astra.py:143 | the age in days times 86 400 is exactly the seconds since last access |
| Ranking.Rank | Astra.py:143 | a memory accessed at the current time ranks by its score alone, and a memory exactly 30 days old ranks 0 |
| Ranking.RecencySign | Astra.py:143 | under 30 days old, a memory ranks with the sign of its score; past 30 days the sign flips |
| Ranking.Limit | Astra.py:145 | a negative limit returns every row; otherwise the result is the first min(limit, count) rows |
| Ranking.SortIsDescending | Astra.py:142-144 | the ordering puts rows in non-increasing order of their key |
| Ranking.RelevantRecords | Astra.py:137-147 | the query returns min(limit, count) rows, or all of the user's rows for a negative limit, drawn without repetition from the user's rows |
| Ranking.DefaultRelevantMemories | Astra.py:137 | without a limit argument the user gets min(5, count) pairs, each the subject and value of the corresponding ranked row |
| Ranking.GetRelevantMemories | Astra.py:139 | each returned pair is the subject and value of the row at the same position in the ranking |
| Ranking.RelevantBelongToUser | Astra.py:141 | every returned memory is a row of the requesting user |
| Ranking.RelevantAreSorted | Astra.py:142-144 | the returned memories are in non-increasing rank order |
| Ranking.RelevantAreTopRanked | Astra.py:142-145 | every returned memory ranks at least as high as every one of the user's memories that was left out |
| Ranking.SmallUserGetsEverything | Astra.py:145 | a user with no more memories than the limit gets all of them back |
| Ranking.TopTwoExample | Astra.py:137-147 | with limit 2, Ada's rows scored 0.9, -0.5 and 0.2 come back as the 0.9 and 0.2 rows, and Bob's row is ignored |
| Ranking.OldSorrowOutranksFreshJoy | Astra.py:143 | a -1.0 memory 60 days old ranks 1.0 and beats a fresh 0.5 memory: past the 30-day window the age multiplier turns negative and flips the sign |

## Left out

- The language-model call, the prompt text built from memories, the console loop and the typing effect are left out. They are I/O and do not change the memory table. The `forget <keyword>` command parsing and `get_existing_user` are left out for the same reason. The model starts at `forget_memory` and `store_memory`.
- API-key loading from `.env` and the environment is left out: it is configuration.
- SQLite itself is left out: connections, commits, durability and concurrent writers. Each operation is a function from table to table, so the read-then-delete race of capacity enforcement is not modelled.
- Decay.Sweep: `exp` is not modelled. The attenuation is a parameter. The corrected decay laws (`Decay.TwoSweepsAreOne`, `Decay.SweepsCompose`) assume only that the curve composes over elapsed time. Only the lemmas about the code as written (`Decay.SweepWithinTheHourKeepsScores`, `Decay.FrequentSweepsFreezeFeelings`) also assume that zero hours is neutral. The examples use linear attenuation, which has both properties. Floating-point rounding is not modelled: scores are exact reals.
- Ranking.AgeDays: `julianday` differences are modelled as exact seconds divided by 86 400, not as floating-point day fractions.
- Emotion.CalculateEmotion: the float sum of weights is exact real arithmetic, so, for example, rounding of -0.8 + -0.6 is not modelled.
- Text.Lower: only ASCII letters are lower-cased, and `\w` is ASCII letters, digits and `_`. Python's Unicode `str.lower`, the case folding of `re.IGNORECASE` and the Unicode `re` word classes are not modelled. `re.IGNORECASE` maps some non-ASCII letters onto ASCII ones, such as the long s (U+017F) onto 's'. So "ſcared" matches `\bscared\b` in the program but not in the model.
- Store.ForgetMemory: `%` and `_` in a keyword are LIKE wildcards, which the model treats as literal characters.
- Store.OldestIndex: SQL gives no order among rows with equal `last_accessed`. The model evicts the earliest such row, one valid choice out of several.
- Ranking.SortIsDescending: equal ranks come back in an unspecified order in SQL. The model uses a fixed insertion sort, and none of the ranking lemmas depend on the order among ties.
- Capacity eviction follows the code, not batched deletion: a single `DELETE` removes exactly `count - 10000` of the user's oldest rows.
- Negative elapsed time is not clamped: a feeling whose `last_accessed` is in the future gets the attenuation for negative hours, as in the code.
- The read-only memory browser `show.py` is not part of this model.

## Findings

| source | as written | input that shows it | evidently intended | confidence | as-written member | corrected member |
|---|---|---|---|---|---|---|
| Astra.py:90 | `strftime('%s', …)` yields text, so the difference is an integer and `/3600` truncates to whole hours. Every sweep (run on each turn, line 158) also resets `last_accessed` to now. So feelings swept less than an hour apart never decay, and the remainder of each hour is lost | a feeling with score 1.0 and decay rate 0.05 last accessed at 0, swept at 1800 s and again at 3600 s: the score stays 1.0, while a single sweep at 3600 s gives 0.95 (linear attenuation) | elapsed hours as a real number, so that successive sweeps compose into one sweep over the total elapsed time | not executed | Decay.HalfHourSweepsLoseDecay | Decay.HalfHourSweepsExact |

=== FILE: Decay.dfy ===
/** The decay sweep (`update_memory_decay`): every feeling-type row of every
    user has its score attenuated by the time since it was last accessed, and
    its access time moved to now. Fact-type rows are never touched.

    The attenuation itself (`score * exp(-rate * hours)` in floating point) is
    a parameter; the properties below hold for any attenuation, or for any
    one that composes the way an exponential does. */
module Decay {
  import opened Records

  /** (score, rate, elapsed hours) to the attenuated score. */
  type Attenuation = (real, real, real) -> real

  /** Attenuating by `h1` hours and then by `h2` is attenuating by `h1 + h2`,
      as `s * exp(-r * h)` does. */
  ghost predicate Composes(atten: Attenuation)
  {
    forall s, r, h1, h2 :: atten(atten(s, r, h1), r, h2) == atten(s, r, h1 + h2)
  }

  /** No time elapsed leaves the score alone, as `exp(0) == 1` does. */
  ghost predicate Neutral(atten: Attenuation)
  {
    forall s, r :: atten(s, r, 0.0) == s
  }

  const SecondsPerHour: int := 3600

  /** Elapsed hours as the sweep computes them: `strftime('%s', ...)` yields
      text, text minus text is an integer in SQLite, and an integer divided by
      3600 is truncated toward zero, so only whole hours count. */
  function WholeHours(seconds: int): (h: int)
    ensures 0 <= seconds ==> 0 <= h && h * SecondsPerHour <= seconds < h * SecondsPerHour + SecondsPerHour
    ensures seconds < 0 ==> h <= 0 && seconds <= h * SecondsPerHour < seconds + SecondsPerHour
  {
    if seconds >= 0 then seconds / SecondsPerHour else -((-seconds) / SecondsPerHour)
  }

  /** Elapsed hours as a real quantity: what the decay model means. */
  function ExactHours(seconds: int): (h: real)
    ensures h * SecondsPerHour as real == seconds as real
  {
    seconds as real / SecondsPerHour as real
  }

  /** One row after a sweep at `now`, elapsed time measured by `hours`. */
  function DecayRow(m: Memory, now: Time, atten: Attenuation, hours: int -> real): (d: Memory)
  {
    if m.memoryType == FeelingType then
      m.(emotionalScore := atten(m.emotionalScore, m.decayRate, hours(now - m.lastAccessed)),
         lastAccessed := now)
    else m
  }

  /** One `UPDATE ... WHERE memory_type = 1` over the whole table. */
  function Sweep(rows: seq<Memory>, now: Time, atten: Attenuation, hours: int -> real): (r: seq<Memory>)
    ensures |r| == |rows|
    ensures forall i :: 0 <= i < |rows| && rows[i].memoryType != FeelingType ==> r[i] == rows[i]
    ensures forall i :: 0 <= i < |rows| && rows[i].memoryType == FeelingType ==>
      r[i].lastAccessed == now
      && r[i].emotionalScore == atten(rows[i].emotionalScore, rows[i].decayRate, hours(now - rows[i].lastAccessed))
      && r[i] == rows[i].(emotionalScore := r[i].emotionalScore, lastAccessed := now)
  {
    seq(|rows|, i requires 0 <= i < |rows| => DecayRow(rows[i], now, atten, hours))
  }

  /** `update_memory_decay` as written: every feeling is attenuated by the
      whole hours since its last access and stamped with `now`; facts stay. */
  function UpdateMemoryDecay(rows: seq<Memory>, now: Time, atten: Attenuation): (r: seq<Memory>)
    ensures |r| == |rows|
    ensures forall i :: 0 <= i < |rows| && rows[i].memoryType != FeelingType ==> r[i] == rows[i]
    ensures forall i :: 0 <= i < |rows| && rows[i].memoryType == FeelingType ==>
      r[i] == rows[i].(emotionalScore := atten(rows[i].emotionalScore, rows[i].decayRate,
                                               WholeHours(now - rows[i].lastAccessed) as real),
                       lastAccessed := now)
  {
    Sweep(rows, now, atten, s => WholeHours(s) as real)
  }

  /** `update_memory_decay` with elapsed time measured exactly: every feeling
      is attenuated by the real hours since its last access. */
  function UpdateMemoryDecayExact(rows: seq<Memory>, now: Time, atten: Attenuation): (r: seq<Memory>)
    ensures |r| == |rows|
    ensures forall i :: 0 <= i < |rows| && rows[i].memoryType != FeelingType ==> r[i] == rows[i]
    ensures forall i :: 0 <= i < |rows| && rows[i].memoryType == FeelingType ==>
      r[i] == rows[i].(emotionalScore := atten(rows[i].emotionalScore, rows[i].decayRate,
                                               ExactHours(now - rows[i].lastAccessed)),
                       lastAccessed := now)
  {
    Sweep(rows, now, atten, ExactHours)
  }

  /** A sweep at each of `times`, in order (one per conversational turn). */
  function SweepAll(rows: seq<Memory>, times: seq<Time>, atten: Attenuation, hours: int -> real): (r: seq<Memory>)
    ensures |r| == |rows|
    decreases |times|
  {
    if |times| == 0 then rows
    else SweepAll(Sweep(rows, times[0], atten, hours), times[1..], atten, hours)
  }

  // ---------------------------------------------------------------------------
  // What a sweep keeps

  /** A sweep adds and removes nothing, and keeps every row's key, owner,
      text and type where it was. */
  lemma SweepKeepsIdentity(rows: seq<Memory>, now: Time, atten: Attenuation, hours: int -> real)
    ensures var r := Sweep(rows, now, atten, hours);
      forall i :: 0 <= i < |rows| ==>
        r[i].id == rows[i].id && r[i].userName == rows[i].userName
        && r[i].subject == rows[i].subject && r[i].value == rows[i].value
        && r[i].memoryType == rows[i].memoryType && r[i].createdAt == rows[i].createdAt
  {
  }

  /** Hence every user keeps the same number of rows and the keys stay unique. */
  lemma SweepKeepsCountsAndKeys(rows: seq<Memory>, now: Time, atten: Attenuation, hours: int -> real, u: string)
    ensures CountUser(Sweep(rows, now, atten, hours), u) == CountUser(rows, u)
    ensures IdsUnique(Sweep(rows, now, atten, hours)) == IdsUnique(rows)
  {
    SweepKeepsIdentity(rows, now, atten, hours);
    SameOwnersSameCount(Sweep(rows, now, atten, hours), rows, u);
  }

  /** Fact rows come through any number of sweeps unchanged, whatever the
      attenuation and however time is measured. */
  lemma {:induction false} FactsNeverDecay(rows: seq<Memory>, times: seq<Time>, atten: Attenuation, hours: int -> real)
    ensures forall i :: 0 <= i < |rows| && rows[i].memoryType != FeelingType ==>
      SweepAll(rows, times, atten, hours)[i] == rows[i]
    decreases |times|
  {
    if |times| > 0 {
      var once := Sweep(rows, times[0], atten, hours);
      FactsNeverDecay(once, times[1..], atten, hours);
    }
  }

  // ---------------------------------------------------------------------------
  // Sweeps compose when time is measured exactly

  /** Two exact attenuations of one row are one at the later time. */
  lemma RowTwiceIsOnce(m: Memory, t1: Time, t2: Time, atten: Attenuation)
    requires Composes(atten)
    ensures DecayRow(DecayRow(m, t1, atten, ExactHours), t2, atten, ExactHours) == DecayRow(m, t2, atten, ExactHours)
  {
    if m.memoryType == FeelingType {
      var h1 := ExactHours(t1 - m.lastAccessed);
      var h2 := ExactHours(t2 - t1);
      assert h1 + h2 == ExactHours(t2 - m.lastAccessed);
    }
  }

  /** Two exact sweeps are one sweep at the later time. */
  lemma TwoSweepsAreOne(rows: seq<Memory>, t1: Time, t2: Time, atten: Attenuation)
    requires Composes(atten)
    ensures UpdateMemoryDecayExact(UpdateMemoryDecayExact(rows, t1, atten), t2, atten) == UpdateMemoryDecayExact(rows, t2, atten)
  {
    var twice := UpdateMemoryDecayExact(UpdateMemoryDecayExact(rows, t1, atten), t2, atten);
    forall i | 0 <= i < |rows|
      ensures twice[i] == DecayRow(rows[i], t2, atten, ExactHours)
    {
      RowTwiceIsOnce(rows[i], t1, t2, atten);
    }
  }

  /** Any non-empty run of exact sweeps is one sweep at the last time: the
      score after sweeps of h1, ..., hN hours is the score attenuated by
      h1 + ... + hN hours. */
  lemma {:induction false} SweepsCompose(rows: seq<Memory>, times: seq<Time>, atten: Attenuation)
    requires Composes(atten)
    requires |times| > 0
    ensures SweepAll(rows, times, atten, ExactHours) == UpdateMemoryDecayExact(rows, times[|times| - 1], atten)
    decreases |times|
  {
    if |times| > 1 {
      var once := UpdateMemoryDecayExact(rows, times[0], atten);
      SweepsCompose(once, times[1..], atten);
      TwoSweepsAreOne(rows, times[0], times[|times| - 1], atten);
    }
  }

  // ---------------------------------------------------------------------------
  // Whole hours: frequent sweeps freeze feelings

  /** Every feeling row was accessed less than an hour before `now`, and not after it. */
  predicate AllWithinTheHour(rows: seq<Memory>, now: Time)
  {
    forall i :: 0 <= i < |rows| && rows[i].memoryType == FeelingType ==>
      0 <= now - rows[i].lastAccessed < SecondsPerHour
  }

  /** Consecutive times, starting from `start`, less than an hour apart. */
  predicate Frequent(start: Time, times: seq<Time>)
  {
    && (|times| > 0 ==> 0 <= times[0] - start < SecondsPerHour)
    && (forall j :: 1 <= j < |times| ==> 0 <= times[j] - times[j - 1] < SecondsPerHour)
  }

  /** One as-written sweep within the hour of every feeling row's last access
      changes no score. */
  lemma SweepWithinTheHourKeepsScores(rows: seq<Memory>, now: Time, atten: Attenuation)
    requires Neutral(atten)
    requires AllWithinTheHour(rows, now)
    ensures var r := UpdateMemoryDecay(rows, now, atten);
      forall i :: 0 <= i < |rows| ==> r[i].emotionalScore == rows[i].emotionalScore
  {
    forall i | 0 <= i < |rows| && rows[i].memoryType == FeelingType
      ensures WholeHours(now - rows[i].lastAccessed) == 0
    {
    }
  }

  /** As written, when the sweeps come less than an hour apart (a user who
      chats more often than hourly), no feeling ever loses any score, however
      long the conversation runs. */
  lemma {:induction false} FrequentSweepsFreezeFeelings(rows: seq<Memory>, start: Time, times: seq<Time>, atten: Attenuation)
    requires Neutral(atten)
    requires forall i :: 0 <= i < |rows| && rows[i].memoryType == FeelingType ==> rows[i].lastAccessed == start
    requires Frequent(start, times)
    ensures var r := SweepAll(rows, times, atten, s => WholeHours(s) as real);
      forall i :: 0 <= i < |rows| ==> r[i].emotionalScore == rows[i].emotionalScore
    decreases |times|
  {
    if |times| > 0 {
      var once := UpdateMemoryDecay(rows, times[0], atten);
      assert AllWithinTheHour(rows, times[0]);
      SweepWithinTheHourKeepsScores(rows, times[0], atten);
      SweepKeepsIdentity(rows, times[0], atten, s => WholeHours(s) as real);
      assert Frequent(times[0], times[1..]) by {
        forall j | 1 <= j < |times| - 1
          ensures 0 <= times[1..][j] - times[1..][j - 1] < SecondsPerHour
        {
          assert times[1..][j] == times[j + 1] && times[1..][j - 1] == times[j];
        }
      }
      FrequentSweepsFreezeFeelings(once, times[0], times[1..], atten);
    }
  }

  // ---------------------------------------------------------------------------
  // A concrete case

  /** Linear attenuation, which composes as the exponential does. */
  function Linear(s: real, r: real, h: real): (a: real)
  {
    s - r * h
  }

  lemma LinearComposes()
    ensures Composes(Linear)
    ensures Neutral(Linear)
  {
  }

  const Sad: Memory := Memory(1, "Ada", "I feel sad", "That sounds hard", 1.0, DefaultDecayRate, FeelingType, 0, 0)

  /** Two as-written sweeps half an hour apart leave the score untouched,
      while one sweep after the same hour takes 0.05 off it. */
  lemma HalfHourSweepsLoseDecay()
    ensures SweepAll([Sad], [1800, 3600], Linear, s => WholeHours(s) as real)[0].emotionalScore == 1.0
    ensures UpdateMemoryDecay([Sad], 3600, Linear)[0].emotionalScore == 0.95
  {
    var hours := s => WholeHours(s) as real;
    var once := Sweep([Sad], 1800, Linear, hours);
    assert once[0].emotionalScore == 1.0 && once[0].lastAccessed == 1800;
    var twice := Sweep(once, 3600, Linear, hours);
    assert twice[0].emotionalScore == 1.0;
    assert [1800, 3600][1..] == [3600];
    assert SweepAll(once, [3600], Linear, hours) == SweepAll(twice, [], Linear, hours);
  }

  /** Measured exactly, the same two sweeps take off the same 0.05. */
  lemma HalfHourSweepsExact()
    ensures SweepAll([Sad], [1800, 3600], Linear, ExactHours)[0].emotionalScore == 0.95
  {
    LinearComposes();
    SweepsCompose([Sad], [1800, 3600], Linear);
  }
}

=== FILE: Emotion.dfy ===
/** The emotion scorer (`calculate_emotion`): a fixed lexicon of word patterns,
    each tagged with its category's weight; every pattern found in the prompt
    adds its weight once, and the sum is clamped to [-1, 1]. */
module Emotion {
  import opened Text

  /** One entry of `EMOTION_WEIGHTS`: a category name, its word patterns
      (lower-case, each beginning and ending with a word character, so `\b`
      on either side means "not inside a longer word"), and its weight. */
  datatype Category = Category(name: string, patterns: seq<string>, weight: real)

  /** `EMOTION_WEIGHTS`, in the dictionary's iteration order. */
  const Lexicon: seq<Category> := [
    Category("fear", ["scared", "nervous", "anxious", "overwhelmed"], -0.8),
    Category("anger", ["angry", "furious", "pissed"], -0.6),
    Category("joy", ["happy", "excited", "great"], 0.7),
    Category("sadness", ["sad", "depressed", "lonely", "feeling like shit"], -0.7)
  ]

  /** Four categories; only joy weighs positive, and no single category
      reaches the clamp on one match. */
  lemma LexiconShape()
    ensures |Lexicon| == 4
    ensures forall j :: 0 <= j < |Lexicon| ==> (0.0 < Lexicon[j].weight <==> j == 2)
    ensures forall j :: 0 <= j < |Lexicon| ==> -1.0 < Lexicon[j].weight < 1.0 && Lexicon[j].weight != 0.0
  {
  }

  /** Every pattern is its own lower-case form, so comparing it with the
      lower-cased text is matching with `re.IGNORECASE`. */
  lemma LexiconIsLowerCase()
    ensures forall j, k :: 0 <= j < |Lexicon| && 0 <= k < |Lexicon[j].patterns| ==>
      Lower(Lexicon[j].patterns[k]) == Lexicon[j].patterns[k]
  {
    forall j, k | 0 <= j < |Lexicon| && 0 <= k < |Lexicon[j].patterns|
      ensures Lower(Lexicon[j].patterns[k]) == Lexicon[j].patterns[k]
    {
      var p := Lexicon[j].patterns[k];
      assert forall i :: 0 <= i < |p| ==> !('A' <= p[i] <= 'Z');
    }
  }

  /** `re.search(r'\b' + p + r'\b', text, re.IGNORECASE)` finds a match at `i`:
      the text, lower-cased, spells `p` there, and no word character touches
      the match on either side. */
  predicate MatchesAt(text: string, p: string, i: int)
  {
    OccursAt(Lower(text), p, i)
    && (i == 0 || !IsWordChar(text[i - 1]))
    && (i + |p| == |text| || !IsWordChar(text[i + |p|]))
  }

  predicate Matches(text: string, p: string)
  {
    exists i | 0 <= i <= |text| - |p| :: MatchesAt(text, p, i)
  }

  /** How many of `patterns` occur in `text`; repeated occurrences of one
      pattern count once. */
  function MatchCount(text: string, patterns: seq<string>): (n: nat)
    ensures n <= |patterns|
    decreases |patterns|
  {
    if |patterns| == 0 then 0
    else (if Matches(text, patterns[0]) then 1 else 0) + MatchCount(text, patterns[1..])
  }

  /** No pattern matches exactly when the count is zero, and every pattern
      matches exactly when the count is full. */
  lemma {:induction false} MatchCountExtremes(text: string, patterns: seq<string>)
    ensures MatchCount(text, patterns) == 0 <==> forall k :: 0 <= k < |patterns| ==> !Matches(text, patterns[k])
    ensures MatchCount(text, patterns) == |patterns| <==> forall k :: 0 <= k < |patterns| ==> Matches(text, patterns[k])
    decreases |patterns|
  {
    if |patterns| > 0 {
      MatchCountExtremes(text, patterns[1..]);
      assert forall k :: 1 <= k < |patterns| ==> patterns[k] == patterns[1..][k - 1];
    }
  }

  /** Counting distributes over a split of the pattern list. */
  lemma {:induction false} MatchCountAppend(text: string, a: seq<string>, b: seq<string>)
    ensures MatchCount(text, a + b) == MatchCount(text, a) + MatchCount(text, b)
    decreases |a|
  {
    if |a| == 0 {
      assert a + b == b;
    } else {
      assert (a + b)[0] == a[0] && (a + b)[1..] == a[1..] + b;
      MatchCountAppend(text, a[1..], b);
    }
  }

  /** The unclamped score: each category's weight once per matched pattern. */
  function RawScore(text: string, cats: seq<Category>): (s: real)
    decreases |cats|
  {
    if |cats| == 0 then 0.0
    else cats[0].weight * MatchCount(text, cats[0].patterns) as real + RawScore(text, cats[1..])
  }

  /** The first category's share of the score, split off the rest. */
  lemma RawScoreCons(text: string, cats: seq<Category>)
    requires |cats| > 0
    ensures RawScore(text, cats) == cats[0].weight * MatchCount(text, cats[0].patterns) as real + RawScore(text, cats[1..])
  {
  }

  function MinReal(a: real, b: real): (m: real)
  {
    if a <= b then a else b
  }

  function MaxReal(a: real, b: real): (m: real)
  {
    if a >= b then a else b
  }

  /** `max(-1.0, min(1.0, x))` */
  function Clamp(x: real): (r: real)
    ensures -1.0 <= r <= 1.0
    ensures -1.0 <= x <= 1.0 ==> r == x
    ensures x <= -1.0 ==> r == -1.0
    ensures x >= 1.0 ==> r == 1.0
  {
    MaxReal(-1.0, MinReal(1.0, x))
  }

  /** `calculate_emotion`: a score in [-1, 1]; a prompt that matches no
      pattern is neutral. */
  function CalculateEmotion(text: string): (r: real)
    ensures -1.0 <= r <= 1.0
    ensures (forall c, p :: c in Lexicon && p in c.patterns ==> !Matches(text, p)) ==> r == 0.0
  {
    NoMatchNeutral(text, Lexicon);
    Clamp(RawScore(text, Lexicon))
  }

  // ---------------------------------------------------------------------------
  // Properties of the scorer

  /** The score is the lexicon total whenever that lies in [-1, 1], and a
      total beyond either bound is cut to it. */
  lemma ClampedScore(text: string)
    ensures var raw := RawScore(text, Lexicon);
      && (-1.0 <= raw <= 1.0 ==> CalculateEmotion(text) == raw)
      && (raw <= -1.0 ==> CalculateEmotion(text) == -1.0)
      && (raw >= 1.0 ==> CalculateEmotion(text) == 1.0)
  {
  }

  /** Without any match, a lexicon contributes nothing. */
  lemma {:induction false} NoMatchNeutral(text: string, cats: seq<Category>)
    ensures (forall c, p :: c in cats && p in c.patterns ==> !Matches(text, p)) ==> RawScore(text, cats) == 0.0
    decreases |cats|
  {
    if |cats| > 0 {
      NoMatchNeutral(text, cats[1..]);
      if forall c, p :: c in cats && p in c.patterns ==> !Matches(text, p) {
        assert forall k :: 0 <= k < |cats[0].patterns| ==> cats[0].patterns[k] in cats[0].patterns;
        MatchCountExtremes(text, cats[0].patterns);
      }
    }
  }

  /** A lexicon none of whose categories counts a match scores zero. */
  lemma {:induction false} ZeroCountsNeutral(text: string, cats: seq<Category>)
    requires forall j :: 0 <= j < |cats| ==> MatchCount(text, cats[j].patterns) == 0
    ensures RawScore(text, cats) == 0.0
    decreases |cats|
  {
    if |cats| > 0 {
      assert forall j :: 0 <= j < |cats| - 1 ==> cats[1..][j] == cats[j + 1];
      ZeroCountsNeutral(text, cats[1..]);
    }
  }

  /** `t1` and `t2` match the same ones among `patterns`. */
  predicate SameHits(t1: string, t2: string, patterns: seq<string>)
  {
    forall p :: p in patterns ==> Matches(t1, p) == Matches(t2, p)
  }

  /** Two texts that match the same patterns score the same: the score
      depends only on which patterns are present, not how often or where. */
  lemma {:induction false} SameMatchesSameCount(t1: string, t2: string, patterns: seq<string>)
    requires SameHits(t1, t2, patterns)
    ensures MatchCount(t1, patterns) == MatchCount(t2, patterns)
    decreases |patterns|
  {
    if |patterns| > 0 {
      assert patterns[0] in patterns;
      assert forall p :: p in patterns[1..] ==> p in patterns;
      SameMatchesSameCount(t1, t2, patterns[1..]);
    }
  }

  lemma {:induction false} SameMatchesSameRaw(t1: string, t2: string, cats: seq<Category>)
    requires forall j :: 0 <= j < |cats| ==> SameHits(t1, t2, cats[j].patterns)
    ensures RawScore(t1, cats) == RawScore(t2, cats)
    decreases |cats|
  {
    if |cats| > 0 {
      SameMatchesSameCount(t1, t2, cats[0].patterns);
      assert forall j :: 0 <= j < |cats| - 1 ==> cats[1..][j] == cats[j + 1];
      SameMatchesSameRaw(t1, t2, cats[1..]);
    }
  }

  lemma SameMatchesSameEmotion(t1: string, t2: string)
    requires forall c, p :: c in Lexicon && p in c.patterns ==> Matches(t1, p) == Matches(t2, p)
    ensures CalculateEmotion(t1) == CalculateEmotion(t2)
  {
    forall j | 0 <= j < |Lexicon|
      ensures SameHits(t1, t2, Lexicon[j].patterns)
    {
      assert Lexicon[j] in Lexicon;
    }
    SameMatchesSameRaw(t1, t2, Lexicon);
  }

  /** Matching ignores case: a pattern matches a text exactly where it
      matches the text's lower-cased form. */
  lemma MatchesIgnoresCase(text: string, p: string)
    ensures Matches(Lower(text), p) == Matches(text, p)
  {
    LowerIdempotent(text);
    forall i | 0 <= i < |text|
      ensures IsWordChar(Lower(text)[i]) == IsWordChar(text[i])
    {
      LowerKeepsWordChars(text[i]);
    }
    assert forall i :: MatchesAt(Lower(text), p, i) == MatchesAt(text, p, i);
  }

  /** So the score of a prompt is the score of its lower-cased form. */
  lemma EmotionIgnoresCase(text: string)
    ensures CalculateEmotion(Lower(text)) == CalculateEmotion(text)
  {
    forall p | true
      ensures Matches(Lower(text), p) == Matches(text, p)
    {
      MatchesIgnoresCase(text, p);
    }
    SameMatchesSameEmotion(Lower(text), text);
  }

  /** A match lies in the lower-cased text. */
  lemma MatchIsContained(text: string, p: string)
    ensures Matches(text, p) ==> Contains(Lower(text), p)
  {
  }

  /** `text` framed by one non-word character on either side. */
  predicate Framed(t: string, text: string)
  {
    && |t| == |text| + 2
    && !IsWordChar(t[0]) && !IsWordChar(t[|t| - 1])
    && forall k :: 0 <= k < |text| ==> t[k + 1] == text[k]
  }

  /** A match at `i` in `text` is a match at `i + 1` in the framed text. */
  lemma FramedMatchAt(t: string, text: string, p: string, i: int)
    requires Framed(t, text)
    requires 0 <= i <= |text| - |p|
    ensures MatchesAt(t, p, i + 1) == MatchesAt(text, p, i)
  {
    var lt, lx := Lower(t), Lower(text);
    assert OccursAt(lt, p, i + 1) == OccursAt(lx, p, i) by {
      assert forall k :: i + 1 <= k < i + 1 + |p| ==> lt[k] == lx[k - 1];
      assert lt[i + 1..i + 1 + |p|] == lx[i..i + |p|];
    }
    assert (i + 1 == 0 || !IsWordChar(t[i])) == (i == 0 || !IsWordChar(text[i - 1]));
    assert (i + 1 + |p| == |t| || !IsWordChar(t[i + 1 + |p|])) == (i + |p| == |text| || !IsWordChar(text[i + |p|]));
  }

  /** Framing changes no match of a pattern that begins and ends with a
      word character. */
  lemma FramedMatches(t: string, text: string, p: string)
    requires Framed(t, text)
    requires |p| > 0 && IsWordChar(p[0]) && IsWordChar(p[|p| - 1])
    ensures Matches(t, p) == Matches(text, p)
  {
    if Matches(text, p) {
      var i :| 0 <= i <= |text| - |p| && MatchesAt(text, p, i);
      FramedMatchAt(t, text, p, i);
    }
    if Matches(t, p) {
      var j :| 0 <= j <= |t| - |p| && MatchesAt(t, p, j);
      var lt := Lower(t);
      assert lt[j] == p[0] && lt[j + |p| - 1] == p[|p| - 1] by {
        assert lt[j..j + |p|] == p;
      }
      assert !IsWordChar(lt[0]) && !IsWordChar(lt[|t| - 1]) by {
        LowerKeepsWordChars(t[0]);
        LowerKeepsWordChars(t[|t| - 1]);
      }
      FramedMatchAt(t, text, p, j - 1);
    }
  }

  /** `\b` needs no real neighbour: the ends of the text are boundaries just
      as spaces are, so padding the text with spaces changes no match of a
      pattern that begins and ends with a word character. */
  lemma PaddingKeepsMatches(text: string, p: string)
    requires |p| > 0 && IsWordChar(p[0]) && IsWordChar(p[|p| - 1])
    ensures Matches(" " + text + " ", p) == Matches(text, p)
  {
    var t := " " + text + " ";
    assert t[0] == ' ' && t[|t| - 1] == ' ';
    assert forall k :: 0 <= k < |text| ==> t[k + 1] == text[k];
    FramedMatches(t, text, p);
  }

  /** Every pattern begins and ends with a word character, so `\b` on
      either side means "not inside a longer word". */
  lemma LexiconWordFramed()
    ensures forall j, k :: 0 <= j < |Lexicon| && 0 <= k < |Lexicon[j].patterns| ==>
      var p := Lexicon[j].patterns[k]; |p| > 0 && IsWordChar(p[0]) && IsWordChar(p[|p| - 1])
  {
  }

  /** Surrounding a prompt with spaces never changes its score. */
  lemma PaddingKeepsEmotion(text: string)
    ensures CalculateEmotion(" " + text + " ") == CalculateEmotion(text)
  {
    LexiconWordFramed();
    forall c, p | c in Lexicon && p in c.patterns
      ensures Matches(" " + text + " ", p) == Matches(text, p)
    {
      var j :| 0 <= j < |Lexicon| && Lexicon[j] == c;
      var k :| 0 <= k < |c.patterns| && c.patterns[k] == p;
      PaddingKeepsMatches(text, p);
    }
    SameMatchesSameEmotion(" " + text + " ", text);
  }

  /** Only the joy category has a positive weight, so a prompt with no joy
      word never scores above neutral. */
  lemma {:induction false} NoPositiveMatchNotPositive(text: string, cats: seq<Category>)
    requires forall c, p :: c in cats && c.weight > 0.0 && p in c.patterns ==> !Matches(text, p)
    ensures RawScore(text, cats) <= 0.0
    decreases |cats|
  {
    if |cats| > 0 {
      assert forall c :: c in cats[1..] ==> c in cats;
      NoPositiveMatchNotPositive(text, cats[1..]);
      if cats[0].weight > 0.0 {
        assert forall k :: 0 <= k < |cats[0].patterns| ==> cats[0].patterns[k] in cats[0].patterns;
        MatchCountExtremes(text, cats[0].patterns);
      }
    }
  }

  lemma NoJoyNotPositive(text: string)
    requires forall p :: p in Lexicon[2].patterns ==> !Matches(text, p)
    ensures CalculateEmotion(text) <= 0.0
  {
    NoPositiveMatchNotPositive(text, Lexicon);
  }

  // ---------------------------------------------------------------------------
  // Worked examples

  lemma LowerOfScaredAndNervous()
    ensures Lower("I feel scared and nervous") == "i feel scared and nervous"
  {
  }

  /** A pattern matches where its lower-cased occurrence is framed by
      non-word characters or the ends of the text. */
  lemma MatchFromLowered(text: string, low: string, p: string, i: nat)
    requires low == Lower(text)
    requires i + |p| <= |text| && low[i..i + |p|] == p
    requires i == 0 || !IsWordChar(text[i - 1])
    requires i + |p| == |text| || !IsWordChar(text[i + |p|])
    ensures Matches(text, p)
  {
    assert MatchesAt(text, p, i);
  }

  lemma ScaredInScaredAndNervous()
    ensures Matches("I feel scared and nervous", "scared")
  {
    var t := "I feel scared and nervous";
    var low := "i feel scared and nervous";
    LowerOfScaredAndNervous();
    assert low[7..13] == "scared";
    MatchFromLowered(t, low, "scared", 7);
  }

  lemma NervousInScaredAndNervous()
    ensures Matches("I feel scared and nervous", "nervous")
  {
    var t := "I feel scared and nervous";
    var low := "i feel scared and nervous";
    LowerOfScaredAndNervous();
    assert low[18..25] == "nervous";
    MatchFromLowered(t, low, "nervous", 18);
  }

  /** A category none of whose patterns occurs in the lower-cased text
      counts no match. */
  lemma AbsentCategory(text: string, low: string, patterns: seq<string>)
    requires low == Lower(text)
    requires forall k :: 0 <= k < |patterns| ==> !Contains(low, patterns[k])
    ensures MatchCount(text, patterns) == 0
  {
    forall k | 0 <= k < |patterns|
      ensures !Matches(text, patterns[k])
    {
      MatchIsContained(text, patterns[k]);
    }
    MatchCountExtremes(text, patterns);
  }

  lemma LoweredScaredAndNervousLacksFear()
    ensures !Contains("i feel scared and nervous", "anxious")
    ensures !Contains("i feel scared and nervous", "overwhelmed")
  {
    var low := "i feel scared and nervous";
    NotContainsWithoutPair(low, "anxious", 1);
    NotContainsWithoutPair(low, "overwhelmed", 0);
  }

  lemma LoweredScaredAndNervousLacksAnger()
    ensures !Contains("i feel scared and nervous", "angry")
    ensures !Contains("i feel scared and nervous", "furious")
    ensures !Contains("i feel scared and nervous", "pissed")
  {
    var low := "i feel scared and nervous";
    NotContainsWithoutPair(low, "angry", 1);
    NotContainsWithoutPair(low, "furious", 0);
    NotContainsWithoutPair(low, "pissed", 0);
  }

  lemma LoweredScaredAndNervousLacksJoy()
    ensures !Contains("i feel scared and nervous", "happy")
    ensures !Contains("i feel scared and nervous", "excited")
    ensures !Contains("i feel scared and nervous", "great")
  {
    var low := "i feel scared and nervous";
    NotContainsWithoutPair(low, "happy", 0);
    NotContainsWithoutPair(low, "excited", 0);
    NotContainsWithoutPair(low, "great", 0);
  }

  lemma LoweredScaredAndNervousLacksSadness()
    ensures !Contains("i feel scared and nervous", "sad")
    ensures !Contains("i feel scared and nervous", "depressed")
    ensures !Contains("i feel scared and nervous", "lonely")
    ensures !Contains("i feel scared and nervous", "feeling like shit")
  {
    var low := "i feel scared and nervous";
    NotContainsWithoutPair(low, "sad", 0);
    NotContainsWithoutPair(low, "depressed", 0);
    NotContainsWithoutPair(low, "lonely", 0);
    NotContainsWithoutPair(low, "feeling like shit", 3);
  }

  lemma BothFearWordsCount()
    ensures MatchCount("I feel scared and nervous", ["scared", "nervous"]) == 2
  {
    ScaredInScaredAndNervous();
    NervousInScaredAndNervous();
    MatchCountExtremes("I feel scared and nervous", ["scared", "nervous"]);
  }

  lemma OtherFearWordsAbsent()
    ensures MatchCount("I feel scared and nervous", ["anxious", "overwhelmed"]) == 0
  {
    LowerOfScaredAndNervous();
    LoweredScaredAndNervousLacksFear();
    AbsentCategory("I feel scared and nervous", "i feel scared and nervous", ["anxious", "overwhelmed"]);
  }

  /** Exactly two of the four fear patterns match. */
  lemma FearInScaredAndNervous()
    ensures MatchCount("I feel scared and nervous", Lexicon[0].patterns) == 2
  {
    var t := "I feel scared and nervous";
    BothFearWordsCount();
    OtherFearWordsAbsent();
    assert Lexicon[0].patterns == ["scared", "nervous"] + ["anxious", "overwhelmed"];
    MatchCountAppend(t, ["scared", "nervous"], ["anxious", "overwhelmed"]);
  }

  lemma NoAngerInScaredAndNervous()
    ensures MatchCount("I feel scared and nervous", Lexicon[1].patterns) == 0
  {
    LowerOfScaredAndNervous();
    LoweredScaredAndNervousLacksAnger();
    AbsentCategory("I feel scared and nervous", "i feel scared and nervous", Lexicon[1].patterns);
  }

  lemma NoJoyInScaredAndNervous()
    ensures MatchCount("I feel scared and nervous", Lexicon[2].patterns) == 0
  {
    LowerOfScaredAndNervous();
    LoweredScaredAndNervousLacksJoy();
    AbsentCategory("I feel scared and nervous", "i feel scared and nervous", Lexicon[2].patterns);
  }

  lemma NoSadnessInScaredAndNervous()
    ensures MatchCount("I feel scared and nervous", Lexicon[3].patterns) == 0
  {
    LowerOfScaredAndNervous();
    LoweredScaredAndNervousLacksSadness();
    AbsentCategory("I feel scared and nervous", "i feel scared and nervous", Lexicon[3].patterns);
  }

  /** No anger, joy or sadness pattern matches. */
  lemma OnlyFearInScaredAndNervous()
    ensures forall j :: 1 <= j < |Lexicon| ==> MatchCount("I feel scared and nervous", Lexicon[j].patterns) == 0
  {
    NoAngerInScaredAndNervous();
    NoJoyInScaredAndNervous();
    NoSadnessInScaredAndNervous();
  }

  /** Two fear words add up past the floor: 2 * -0.8 = -1.6 is clamped to -1. */
  lemma ScaredAndNervousExample()
    ensures MatchCount("I feel scared and nervous", Lexicon[0].patterns) == 2
    ensures forall j :: 1 <= j < |Lexicon| ==> MatchCount("I feel scared and nervous", Lexicon[j].patterns) == 0
    ensures RawScore("I feel scared and nervous", Lexicon) == -1.6
    ensures CalculateEmotion("I feel scared and nervous") == -1.0
  {
    var t := "I feel scared and nervous";
    FearInScaredAndNervous();
    OnlyFearInScaredAndNervous();
    assert RawScore(t, Lexicon[1..]) == 0.0 by {
      assert forall j :: 0 <= j < |Lexicon[1..]| ==> Lexicon[1..][j] == Lexicon[j + 1];
      ZeroCountsNeutral(t, Lexicon[1..]);
    }
    assert RawScore(t, Lexicon) == -1.6 by {
      assert Lexicon[0].weight == -0.8;
      RawScoreCons(t, Lexicon);
    }
    ClampedScore(t);
  }

  /** "scared" sits inside "scaredy" but is followed by a word character. */
  lemma NoFearInScaredy()
    ensures MatchCount("scaredy", Lexicon[0].patterns) == 0
  {
    var t := "scaredy";
    assert Lower(t) == t;
    forall i | 0 <= i <= |t| - 6
      ensures !MatchesAt(t, "scared", i)
    {
      if i == 1 {
        assert Lower(t)[1] != "scared"[0];
      }
    }
    assert !Contains(t, "nervous") by { NotContainsWithoutPair(t, "nervous", 0); }
    assert !Contains(t, "anxious") by { NotContainsWithoutPair(t, "anxious", 0); }
    assert !Contains(t, "overwhelmed") by { NotContainsWithoutPair(t, "overwhelmed", 0); }
    MatchIsContained(t, "nervous");
    MatchIsContained(t, "anxious");
    MatchIsContained(t, "overwhelmed");
    MatchCountExtremes(t, Lexicon[0].patterns);
  }

  lemma LoweredScaredyLacksOthers()
    ensures forall j :: 1 <= j < |Lexicon| ==> forall k :: 0 <= k < |Lexicon[j].patterns| ==> !Contains("scaredy", Lexicon[j].patterns[k])
  {
    var t := "scaredy";
    assert !Contains(t, "angry") by { NotContainsWithoutPair(t, "angry", 0); }
    assert !Contains(t, "furious") by { NotContainsWithoutPair(t, "furious", 0); }
    assert !Contains(t, "pissed") by { NotContainsWithoutPair(t, "pissed", 0); }
    assert !Contains(t, "happy") by { NotContainsWithoutPair(t, "happy", 0); }
    assert !Contains(t, "excited") by { NotContainsWithoutPair(t, "excited", 0); }
    assert !Contains(t, "great") by { NotContainsWithoutPair(t, "great", 0); }
    assert !Contains(t, "sad") by { NotContainsWithoutPair(t, "sad", 0); }
    assert !Contains(t, "depressed") by { NotContainsWithoutPair(t, "depressed", 0); }
    assert !Contains(t, "lonely") by { NotContainsWithoutPair(t, "lonely", 0); }
    assert !Contains(t, "feeling like shit") by { NotContainsWithoutPair(t, "feeling like shit", 0); }
  }

  lemma NoOtherInScaredy()
    ensures forall j :: 1 <= j < |Lexicon| ==> MatchCount("scaredy", Lexicon[j].patterns) == 0
  {
    var t := "scaredy";
    assert Lower(t) == t;
    LoweredScaredyLacksOthers();
    forall j, k | 1 <= j < |Lexicon| && 0 <= k < |Lexicon[j].patterns|
      ensures !Matches(t, Lexicon[j].patterns[k])
    {
      MatchIsContained(t, Lexicon[j].patterns[k]);
    }
    forall j | 1 <= j < |Lexicon|
      ensures MatchCount(t, Lexicon[j].patterns) == 0
    {
      MatchCountExtremes(t, Lexicon[j].patterns);
    }
  }

  /** A pattern inside a longer word is no match. */
  lemma WordBoundaryExample()
    ensures MatchCount("scaredy", Lexicon[0].patterns) == 0
    ensures forall j :: 1 <= j < |Lexicon| ==> MatchCount("scaredy", Lexicon[j].patterns) == 0
    ensures CalculateEmotion("scaredy") == 0.0
  {
    var t := "scaredy";
    NoFearInScaredy();
    NoOtherInScaredy();
    ZeroCountsNeutral(t, Lexicon);
    ClampedScore(t);
  }
}

=== FILE: Ranking.dfy ===
/** Retrieval (`get_relevant_memories`): a user's rows ordered by
    `emotional_score * (1 - age_days / 30)`, highest first, cut to a limit,
    returned as (subject, value) pairs. */
module Ranking {
  import opened Records

  const SecondsPerDay: int := 86400

  /** Window, in days, over which the recency factor falls from 1 to 0. */
  const RecencyWindowDays: real := 30.0

  /** `limit` when the caller gives none. */
  const DefaultLimit: int := 5

  /** `julianday('now') - julianday(last_accessed)`: age in days. */
  function AgeDays(m: Memory, now: Time): (d: real)
    ensures d * SecondsPerDay as real == (now - m.lastAccessed) as real
  {
    (now - m.lastAccessed) as real / SecondsPerDay as real
  }

  /** The `ORDER BY` key: the score damped by age, to nothing at the end of
      the window. */
  function Rank(m: Memory, now: Time): (k: real)
    ensures m.lastAccessed == now ==> k == m.emotionalScore
    ensures AgeDays(m, now) == RecencyWindowDays ==> k == 0.0
  {
    m.emotionalScore * (1.0 - AgeDays(m, now) / RecencyWindowDays)
  }

  /** Highest key first. */
  predicate Descending(s: seq<Memory>, key: Memory -> real)
  {
    forall i, j :: 0 <= i < j < |s| ==> key(s[i]) >= key(s[j])
  }

  /** A row no lower than the head of a descending sequence may lead it. */
  lemma ConsDescending(h: Memory, s: seq<Memory>, key: Memory -> real)
    requires Descending(s, key)
    requires |s| > 0 ==> key(h) >= key(s[0])
    ensures Descending([h] + s, key)
  {
    var r := [h] + s;
    forall i, j | 0 <= i < j < |r|
      ensures key(r[i]) >= key(r[j])
    {
      assert r[j] == s[j - 1];
      if i > 0 {
        assert r[i] == s[i - 1];
      } else {
        assert key(s[0]) >= key(s[j - 1]);
      }
    }
  }

  /** Puts `x` into a descending sequence ahead of every row it does not rank below. */
  function InsertByKey(x: Memory, s: seq<Memory>, key: Memory -> real): (r: seq<Memory>)
    ensures |r| == |s| + 1
    ensures multiset(r) == multiset(s) + multiset{x}
    ensures r[0] == x || (|s| > 0 && r[0] == s[0])
    decreases |s|
  {
    if |s| == 0 || key(x) >= key(s[0]) then [x] + s
    else
      assert s == [s[0]] + s[1..];
      [s[0]] + InsertByKey(x, s[1..], key)
  }

  /** Insertion keeps a descending sequence descending. */
  lemma {:induction false} InsertKeepsDescending(x: Memory, s: seq<Memory>, key: Memory -> real)
    requires Descending(s, key)
    ensures Descending(InsertByKey(x, s, key), key)
    decreases |s|
  {
    if |s| == 0 || key(x) >= key(s[0]) {
      ConsDescending(x, s, key);
    } else {
      var rest := InsertByKey(x, s[1..], key);
      assert Descending(s[1..], key);
      InsertKeepsDescending(x, s[1..], key);
      assert rest[0] == x || rest[0] == s[1];
      ConsDescending(s[0], rest, key);
    }
  }

  /** Insertion sort, highest key first. */
  function SortByKey(s: seq<Memory>, key: Memory -> real): (r: seq<Memory>)
    ensures |r| == |s|
    ensures multiset(r) == multiset(s)
    decreases |s|
  {
    if |s| == 0 then []
    else
      assert s == [s[0]] + s[1..];
      InsertByKey(s[0], SortByKey(s[1..], key), key)
  }

  lemma {:induction false} SortIsDescending(s: seq<Memory>, key: Memory -> real)
    ensures Descending(SortByKey(s, key), key)
    decreases |s|
  {
    if |s| > 0 {
      SortIsDescending(s[1..], key);
      InsertKeepsDescending(s[0], SortByKey(s[1..], key), key);
    }
  }

  /** The rows ordered by rank at `now`, highest first. */
  function SortByRank(s: seq<Memory>, now: Time): (r: seq<Memory>)
    ensures |r| == |s|
    ensures multiset(r) == multiset(s)
  {
    SortByKey(s, m => Rank(m, now))
  }

  predicate SortedByRank(s: seq<Memory>, now: Time)
  {
    Descending(s, m => Rank(m, now))
  }

  /** SQLite's `LIMIT n`: the first `n` rows, every row when `n` is negative. */
  function Limit(s: seq<Memory>, n: int): (r: seq<Memory>)
    ensures n < 0 ==> r == s
    ensures 0 <= n ==> |r| == if n <= |s| then n else |s|
    ensures 0 <= n ==> r == s[..|r|]
  {
    if n < 0 || |s| <= n then s else s[..n]
  }

  /** The rows `get_relevant_memories` returns, before projection. */
  function RelevantRecords(rows: seq<Memory>, u: string, now: Time, limit: int): (r: seq<Memory>)
    ensures limit < 0 ==> |r| == CountUser(rows, u)
    ensures 0 <= limit ==> |r| == if limit <= CountUser(rows, u) then limit else CountUser(rows, u)
    ensures multiset(r) <= multiset(OfUser(rows, u))
  {
    var sorted := SortByRank(OfUser(rows, u), now);
    var r := Limit(sorted, limit);
    assert sorted == r + sorted[|r|..];
    r
  }

  /** `get_relevant_memories`: the (subject, value) of each relevant row. */
  function GetRelevantMemories(rows: seq<Memory>, u: string, now: Time, limit: int): (r: seq<(string, string)>)
    ensures var recs := RelevantRecords(rows, u, now, limit);
      |r| == |recs| && forall i :: 0 <= i < |r| ==> r[i] == (recs[i].subject, recs[i].value)
  {
    var recs := RelevantRecords(rows, u, now, limit);
    seq(|recs|, i requires 0 <= i < |recs| => (recs[i].subject, recs[i].value))
  }

  /** `get_relevant_memories(user_name)` with the default limit: at most
      five of the user's memories. */
  function DefaultRelevantMemories(rows: seq<Memory>, u: string, now: Time): (r: seq<(string, string)>)
    ensures |r| == if CountUser(rows, u) <= DefaultLimit then CountUser(rows, u) else DefaultLimit
    ensures forall i :: 0 <= i < |r| ==>
      r[i] == (RelevantRecords(rows, u, now, DefaultLimit)[i].subject, RelevantRecords(rows, u, now, DefaultLimit)[i].value)
  {
    GetRelevantMemories(rows, u, now, DefaultLimit)
  }

  // ---------------------------------------------------------------------------
  // Properties of retrieval

  /** In a descending sequence, no row after position `k` ranks above a row
      before it. */
  lemma PrefixIsTop(s: seq<Memory>, k: nat, key: Memory -> real)
    requires Descending(s, key) && k <= |s|
    ensures Descending(s[..k], key)
    ensures forall x, y :: x in s[..k] && y in s[k..] ==> key(x) >= key(y)
  {
    forall x, y | x in s[..k] && y in s[k..]
      ensures key(x) >= key(y)
    {
      var i :| 0 <= i < k && s[..k][i] == x;
      var j :| 0 <= j < |s| - k && s[k..][j] == y;
      assert s[i] == x && s[k + j] == y;
    }
  }

  /** Every returned row is one of the user's rows. */
  lemma RelevantBelongToUser(rows: seq<Memory>, u: string, now: Time, limit: int)
    ensures forall x :: x in RelevantRecords(rows, u, now, limit) ==> x.userName == u && x in rows
  {
    SelectContents(rows, u, true);
    SubMultisetMembers(RelevantRecords(rows, u, now, limit), OfUser(rows, u));
  }

  /** The rows come highest rank first. */
  lemma RelevantAreSorted(rows: seq<Memory>, u: string, now: Time, limit: int)
    ensures SortedByRank(RelevantRecords(rows, u, now, limit), now)
  {
    var key := m => Rank(m, now);
    var sorted := SortByRank(OfUser(rows, u), now);
    var r := RelevantRecords(rows, u, now, limit);
    assert r == sorted[..|r|];
    SortIsDescending(OfUser(rows, u), key);
    PrefixIsTop(sorted, |r|, key);
  }

  /** The same, against everything a prefix leaves out. */
  lemma PrefixBeatsTheRest(s: seq<Memory>, k: nat, key: Memory -> real)
    requires Descending(s, key) && k <= |s|
    ensures forall x, y :: x in s[..k] && y in multiset(s) - multiset(s[..k]) ==> key(x) >= key(y)
  {
    PrefixIsTop(s, k, key);
    assert s == s[..k] + s[k..];
    assert multiset(s) - multiset(s[..k]) == multiset(s[k..]);
  }

  /** No row of the user that is left out ranks above one that is returned. */
  lemma RelevantAreTopRanked(rows: seq<Memory>, u: string, now: Time, limit: int)
    ensures var r := RelevantRecords(rows, u, now, limit);
      forall x, y :: x in r && y in multiset(OfUser(rows, u)) - multiset(r) ==> Rank(x, now) >= Rank(y, now)
  {
    var key := m => Rank(m, now);
    var sorted := SortByRank(OfUser(rows, u), now);
    var r := RelevantRecords(rows, u, now, limit);
    assert r == sorted[..|r|];
    SortIsDescending(OfUser(rows, u), key);
    PrefixBeatsTheRest(sorted, |r|, key);
  }

  /** A user with no more rows than the limit gets all of them back. */
  lemma SmallUserGetsEverything(rows: seq<Memory>, u: string, now: Time, limit: int)
    requires limit < 0 || CountUser(rows, u) <= limit
    ensures multiset(RelevantRecords(rows, u, now, limit)) == multiset(OfUser(rows, u))
  {
  }

  // ---------------------------------------------------------------------------
  // Worked examples

  /** Within the window a row ranks with the sign of its score; past it the
      recency factor is negative and the sign flips, so an old sorrow ranks
      like a fresh joy. */
  lemma RecencySign(m: Memory, now: Time)
    ensures AgeDays(m, now) < RecencyWindowDays ==>
      (0.0 < Rank(m, now) <==> 0.0 < m.emotionalScore) && (Rank(m, now) < 0.0 <==> m.emotionalScore < 0.0)
    ensures AgeDays(m, now) > RecencyWindowDays ==>
      (0.0 < Rank(m, now) <==> m.emotionalScore < 0.0) && (Rank(m, now) < 0.0 <==> 0.0 < m.emotionalScore)
  {
    var f := 1.0 - AgeDays(m, now) / RecencyWindowDays;
    var s := m.emotionalScore;
    assert Rank(m, now) == s * f;
    if f > 0.0 {
      assert s > 0.0 ==> s * f > 0.0;
      assert s < 0.0 ==> s * f < 0.0;
    } else if f < 0.0 {
      assert s > 0.0 ==> s * f < 0.0;
      assert s < 0.0 ==> s * f > 0.0;
    }
  }

  lemma SortCons(s: seq<Memory>, key: Memory -> real)
    requires |s| > 0
    ensures SortByKey(s, key) == InsertByKey(s[0], SortByKey(s[1..], key), key)
  {
  }

  lemma InsertAhead(x: Memory, s: seq<Memory>, key: Memory -> real)
    requires |s| == 0 || key(x) >= key(s[0])
    ensures InsertByKey(x, s, key) == [x] + s
  {
  }

  lemma InsertBehind(x: Memory, s: seq<Memory>, key: Memory -> real)
    requires |s| > 0 && key(x) < key(s[0])
    ensures InsertByKey(x, s, key) == [s[0]] + InsertByKey(x, s[1..], key)
  {
  }

  /** Three of Ada's rows and one of Bob's, all accessed at time 0. */
  const AdaHigh: Memory := Memory(1, "Ada", "trip", "Paris", 0.9, 0.05, 0, 0, 0)
  const AdaLow: Memory := Memory(2, "Ada", "exam", "failed", -0.5, 0.05, 0, 0, 0)
  const AdaMid: Memory := Memory(3, "Ada", "cat", "Tom", 0.2, 0.05, 0, 0, 0)
  const BobTop: Memory := Memory(4, "Bob", "car", "red", 1.0, 0.05, 0, 0, 0)

  lemma AdaRows()
    ensures OfUser([AdaHigh, AdaLow, BobTop, AdaMid], "Ada") == [AdaHigh, AdaLow, AdaMid]
  {
    var rows := [AdaHigh, AdaLow, BobTop, AdaMid];
    assert rows[1..][1..][1..] == [AdaMid];
    assert OfUser([AdaMid], "Ada") == [AdaMid] by {
      SelectSingle(AdaMid, "Ada", true);
    }
    assert rows[1..][1..] == [BobTop, AdaMid];
    assert OfUser(rows[1..][1..], "Ada") == [AdaMid];
    assert rows[1..] == [AdaLow, BobTop, AdaMid];
    assert OfUser(rows[1..], "Ada") == [AdaLow, AdaMid];
  }

  lemma AdaTailSorted()
    ensures SortByRank([AdaLow, AdaMid], 0) == [AdaMid, AdaLow]
  {
    var key := m => Rank(m, 0);
    assert Rank(AdaLow, 0) == AdaLow.emotionalScore;
    assert Rank(AdaMid, 0) == AdaMid.emotionalScore;
    assert SortByKey([AdaMid], key) == [AdaMid] by {
      SortCons([AdaMid], key);
      InsertAhead(AdaMid, [], key);
    }
    SortCons([AdaLow, AdaMid], key);
    assert [AdaLow, AdaMid][1..] == [AdaMid];
    InsertBehind(AdaLow, [AdaMid], key);
    InsertAhead(AdaLow, [], key);
  }

  lemma AdaSorted()
    ensures SortByRank([AdaHigh, AdaLow, AdaMid], 0) == [AdaHigh, AdaMid, AdaLow]
  {
    var key := m => Rank(m, 0);
    var mine := [AdaHigh, AdaLow, AdaMid];
    assert Rank(AdaHigh, 0) == AdaHigh.emotionalScore;
    assert Rank(AdaMid, 0) == AdaMid.emotionalScore;
    AdaTailSorted();
    SortCons(mine, key);
    assert mine[1..] == [AdaLow, AdaMid];
    InsertAhead(AdaHigh, [AdaMid, AdaLow], key);
  }

  /** Other users' rows are ignored, and the two highest-ranked of Ada's
      three come back, highest first. */
  lemma TopTwoExample()
    ensures RelevantRecords([AdaHigh, AdaLow, BobTop, AdaMid], "Ada", 0, 2) == [AdaHigh, AdaMid]
  {
    AdaRows();
    AdaSorted();
    assert [AdaHigh, AdaMid, AdaLow][..2] == [AdaHigh, AdaMid];
  }

  /** The recency factor turns negative after 30 days, so an old painful
      memory outranks a fresh pleasant one. */
  const OldSorrow: Memory := Memory(5, "Ada", "loss", "grief", -1.0, 0.05, 0, 0, 0)
  const FreshJoy: Memory := Memory(6, "Ada", "job", "hired", 0.5, 0.05, 0, 60 * SecondsPerDay, 60 * SecondsPerDay)

  lemma SorrowRanks()
    ensures Rank(OldSorrow, 60 * SecondsPerDay) == 1.0
    ensures Rank(FreshJoy, 60 * SecondsPerDay) == 0.5
  {
    assert AgeDays(OldSorrow, 60 * SecondsPerDay) == 60.0;
    assert Rank(FreshJoy, 60 * SecondsPerDay) == FreshJoy.emotionalScore;
  }

  lemma SorrowSorted()
    ensures SortByRank([FreshJoy, OldSorrow], 60 * SecondsPerDay) == [OldSorrow, FreshJoy]
  {
    var key := m => Rank(m, 60 * SecondsPerDay);
    var rows := [FreshJoy, OldSorrow];
    SorrowRanks();
    assert SortByKey([OldSorrow], key) == [OldSorrow] by {
      SortCons([OldSorrow], key);
      InsertAhead(OldSorrow, [], key);
    }
    SortCons(rows, key);
    assert rows[1..] == [OldSorrow];
    InsertBehind(FreshJoy, [OldSorrow], key);
    InsertAhead(FreshJoy, [], key);
  }

  lemma OldSorrowOutranksFreshJoy()
    ensures Rank(OldSorrow, 60 * SecondsPerDay) == 1.0
    ensures Rank(FreshJoy, 60 * SecondsPerDay) == 0.5
    ensures RelevantRecords([FreshJoy, OldSorrow], "Ada", 60 * SecondsPerDay, 1) == [OldSorrow]
  {
    var rows := [FreshJoy, OldSorrow];
    SorrowRanks();
    assert OfUser(rows, "Ada") == rows by {
      assert rows[1..] == [OldSorrow];
      SelectSingle(OldSorrow, "Ada", true);
    }
    SorrowSorted();
  }
}

=== FILE: Records.dfy ===
/** The persisted entity: one row of the `memories` table, and the row
    selections every operation of the store is phrased in. The table itself is
    an immutable sequence of rows in rowid order. */
module Records {

  /** A timestamp in whole seconds, the resolution of SQLite's CURRENT_TIMESTAMP. */
  type Time = int

  /** `memory_type` tags: facts keep their score, feelings decay. */
  const FactType: int := 0
  const FeelingType: int := 1

  /** Column default of `decay_rate`. */
  const DefaultDecayRate: real := 0.05

  datatype Memory = Memory(
    id: nat,
    userName: string,
    subject: string,
    value: string,
    emotionalScore: real,
    decayRate: real,
    memoryType: int,
    createdAt: Time,
    lastAccessed: Time)

  /** The rows whose owner is (`mine`) or is not (`!mine`) user `u`, in table order. */
  function Select(rows: seq<Memory>, u: string, mine: bool): (r: seq<Memory>)
    ensures |r| <= |rows|
    decreases |rows|
  {
    if |rows| == 0 then []
    else
      (if (rows[0].userName == u) == mine then [rows[0]] else []) + Select(rows[1..], u, mine)
  }

  /** The selection holds exactly the rows on the requested side, each as
      often as in the table. */
  lemma {:induction false} SelectContents(rows: seq<Memory>, u: string, mine: bool)
    ensures forall m :: m in Select(rows, u, mine) <==> m in rows && (m.userName == u) == mine
    ensures forall m: Memory :: (m.userName == u) == mine ==> multiset(Select(rows, u, mine))[m] == multiset(rows)[m]
    ensures forall m: Memory :: (m.userName == u) != mine ==> multiset(Select(rows, u, mine))[m] == 0
    decreases |rows|
  {
    if |rows| > 0 {
      SelectContents(rows[1..], u, mine);
      assert rows == [rows[0]] + rows[1..];
    }
  }

  /** A row that occurs in a sub-multiset of a table occurs in the table. */
  lemma SubMultisetMembers(a: seq<Memory>, b: seq<Memory>)
    requires multiset(a) <= multiset(b)
    ensures forall y :: y in a ==> y in b
  {
    forall y | y in a
      ensures y in b
    {
      assert y in multiset(a);
    }
  }

  /** Rows of user `u` (`WHERE user_name = ?`). */
  function OfUser(rows: seq<Memory>, u: string): (r: seq<Memory>)
  {
    Select(rows, u, true)
  }

  /** Rows of every other user. */
  function Others(rows: seq<Memory>, u: string): (r: seq<Memory>)
  {
    Select(rows, u, false)
  }

  /** `SELECT COUNT(*) FROM memories WHERE user_name = ?` */
  function CountUser(rows: seq<Memory>, u: string): (n: nat)
  {
    |OfUser(rows, u)|
  }

  /** The table without the rows `doomed` picks, in table order: the effect of
      `DELETE FROM memories WHERE <doomed>`. */
  function Discard(rows: seq<Memory>, doomed: Memory -> bool): (r: seq<Memory>)
    ensures forall m :: m in r <==> m in rows && !doomed(m)
    ensures |r| <= |rows|
    decreases |rows|
  {
    if |rows| == 0 then []
    else (if doomed(rows[0]) then [] else [rows[0]]) + Discard(rows[1..], doomed)
  }

  /** A delete keeps every copy of the rows it spares and none of the others. */
  lemma {:induction false} DiscardMultiset(rows: seq<Memory>, doomed: Memory -> bool)
    ensures forall m :: !doomed(m) ==> multiset(Discard(rows, doomed))[m] == multiset(rows)[m]
    ensures forall m :: doomed(m) ==> multiset(Discard(rows, doomed))[m] == 0
    decreases |rows|
  {
    if |rows| > 0 {
      DiscardMultiset(rows[1..], doomed);
      assert rows == [rows[0]] + rows[1..];
    }
  }

  /** Running the same delete twice removes nothing more. */
  lemma {:induction false} DiscardIdempotent(rows: seq<Memory>, doomed: Memory -> bool)
    ensures Discard(Discard(rows, doomed), doomed) == Discard(rows, doomed)
    decreases |rows|
  {
    if |rows| > 0 {
      DiscardIdempotent(rows[1..], doomed);
      var rest := Discard(rows[1..], doomed);
      if !doomed(rows[0]) {
        var once := [rows[0]] + rest;
        assert once[0] == rows[0] && once[1..] == rest;
        assert Discard(once, doomed) == [rows[0]] + Discard(rest, doomed);
      } else {
        assert Discard(rows, doomed) == [] + rest == rest;
      }
    }
  }

  /** A delete confined to user `u`'s rows leaves every other user's rows as they were. */
  lemma {:induction false} DiscardKeepsOthers(rows: seq<Memory>, doomed: Memory -> bool, u: string)
    requires forall m :: doomed(m) ==> m.userName == u
    ensures Others(Discard(rows, doomed), u) == Others(rows, u)
    decreases |rows|
  {
    if |rows| > 0 {
      DiscardKeepsOthers(rows[1..], doomed, u);
      var rest := Discard(rows[1..], doomed);
      if !doomed(rows[0]) {
        var once := [rows[0]] + rest;
        assert once[0] == rows[0] && once[1..] == rest;
        assert Select(once, u, false) == (if rows[0].userName != u then [rows[0]] else []) + Select(rest, u, false);
      } else {
        assert Discard(rows, doomed) == [] + rest == rest;
        assert Select(rows, u, false) == [] + Select(rows[1..], u, false);
      }
    }
  }

  /** A delete keeps the primary key unique. */
  lemma {:induction false} DiscardKeepsIdsUnique(rows: seq<Memory>, doomed: Memory -> bool)
    ensures IdsUnique(rows) ==> IdsUnique(Discard(rows, doomed))
    decreases |rows|
  {
    if |rows| > 0 {
      var rest := Discard(rows[1..], doomed);
      DiscardKeepsIdsUnique(rows[1..], doomed);
      if !doomed(rows[0]) && IdsUnique(rows) {
        assert forall m :: m in rows[1..] ==> m.id != rows[0].id;
        var r := [rows[0]] + rest;
        forall p, q | 0 <= p < q < |r|
          ensures r[p].id != r[q].id
        {
          assert r[q] == rest[q - 1] && r[q] in rows[1..];
        }
      }
    }
  }

  /** The count of a non-empty table, split at its first row. */
  lemma CountUserCons(rows: seq<Memory>, u: string)
    requires |rows| > 0
    ensures CountUser(rows, u) == (if rows[0].userName == u then 1 else 0) + CountUser(rows[1..], u)
  {
  }

  /** A user with no count owns no row. */
  lemma NoRowOf(rows: seq<Memory>, u: string)
    requires CountUser(rows, u) == 0
    ensures forall j :: 0 <= j < |rows| ==> rows[j].userName != u
  {
    SelectContents(rows, u, true);
    assert forall j :: 0 <= j < |rows| ==> rows[j] in rows;
  }

  /** The primary key is unique across the table. */
  predicate IdsUnique(rows: seq<Memory>)
  {
    forall i, j :: 0 <= i < j < |rows| ==> rows[i].id != rows[j].id
  }

  /** Largest id in the table, 0 when it is empty. */
  function MaxId(rows: seq<Memory>): (r: nat)
    ensures forall m :: m in rows ==> m.id <= r
    decreases |rows|
  {
    if |rows| == 0 then 0
    else
      var rest := MaxId(rows[1..]);
      if rows[0].id > rest then rows[0].id else rest
  }

  /** The id SQLite gives an `INTEGER PRIMARY KEY` row inserted without one:
      one more than the largest id present, or 1 in an empty table. */
  function NextId(rows: seq<Memory>): (r: nat)
    ensures r >= 1
    ensures forall m :: m in rows ==> m.id < r
  {
    MaxId(rows) + 1
  }

  /** Selection distributes over concatenation. */
  lemma {:induction false} SelectAppend(a: seq<Memory>, b: seq<Memory>, u: string, mine: bool)
    ensures Select(a + b, u, mine) == Select(a, u, mine) + Select(b, u, mine)
    decreases |a|
  {
    if |a| == 0 {
      assert a + b == b;
    } else {
      var ab := a + b;
      assert ab[0] == a[0] && ab[1..] == a[1..] + b;
      SelectAppend(a[1..], b, u, mine);
      var head := if (a[0].userName == u) == mine then [a[0]] else [];
      assert Select(ab, u, mine) == head + Select(a[1..] + b, u, mine);
      assert Select(a, u, mine) == head + Select(a[1..], u, mine);
    }
  }

  /** Every row is selected on exactly one side. */
  lemma {:induction false} SelectSplit(rows: seq<Memory>, u: string)
    ensures multiset(OfUser(rows, u)) + multiset(Others(rows, u)) == multiset(rows)
    ensures |OfUser(rows, u)| + |Others(rows, u)| == |rows|
    decreases |rows|
  {
    if |rows| > 0 {
      SelectSplit(rows[1..], u);
      assert rows == [rows[0]] + rows[1..];
    }
  }

  /** A single row is selected on exactly the side its owner puts it. */
  lemma SelectSingle(x: Memory, u: string, mine: bool)
    ensures Select([x], u, mine) == if (x.userName == u) == mine then [x] else []
  {
    assert [x][1..] == [];
  }

  /** The table without the row at position `i`. */
  function RemoveAt(rows: seq<Memory>, i: nat): (r: seq<Memory>)
    requires i < |rows|
    ensures |r| == |rows| - 1
    ensures forall j {:trigger r[j]} :: 0 <= j < i ==> r[j] == rows[j]
    ensures forall j {:trigger r[j]} :: i <= j < |r| ==> r[j] == rows[j + 1]
    decreases i
  {
    if i == 0 then rows[1..] else [rows[0]] + RemoveAt(rows[1..], i - 1)
  }

  /** Removing the row at `i` takes exactly that row out of the table's multiset. */
  lemma {:induction false} RemoveAtMultiset(rows: seq<Memory>, i: nat)
    requires i < |rows|
    ensures multiset(rows) == multiset(RemoveAt(rows, i)) + multiset{rows[i]}
    decreases i
  {
    assert rows == [rows[0]] + rows[1..];
    if i > 0 {
      RemoveAtMultiset(rows[1..], i - 1);
    }
  }

  /** Every row left after a removal was in the table. */
  lemma RemoveAtMembers(rows: seq<Memory>, i: nat)
    requires i < |rows|
    ensures forall m :: m in RemoveAt(rows, i) ==> m in rows
  {
    RemoveAtMultiset(rows, i);
    SubMultisetMembers(RemoveAt(rows, i), rows);
  }

  /** Dropping the row at `i` removes exactly that row from its side of the
      selection and leaves the other side as it was. */
  lemma {:induction false} SelectRemoveAt(rows: seq<Memory>, i: nat, u: string, mine: bool)
    requires i < |rows|
    ensures (rows[i].userName == u) != mine ==> Select(RemoveAt(rows, i), u, mine) == Select(rows, u, mine)
    ensures (rows[i].userName == u) == mine ==> |Select(RemoveAt(rows, i), u, mine)| + 1 == |Select(rows, u, mine)|
    decreases i
  {
    if i > 0 {
      SelectRemoveAt(rows[1..], i - 1, u, mine);
      var r := RemoveAt(rows, i);
      assert r == [rows[0]] + RemoveAt(rows[1..], i - 1);
      assert r[0] == rows[0] && r[1..] == RemoveAt(rows[1..], i - 1);
    }
  }

  /** Dropping a row of user `u` leaves the other users' rows as they were and
      removes one from `u`'s count. */
  lemma RemoveOwnRow(rows: seq<Memory>, i: nat, u: string)
    requires i < |rows| && rows[i].userName == u
    ensures Others(RemoveAt(rows, i), u) == Others(rows, u)
    ensures CountUser(RemoveAt(rows, i), u) + 1 == CountUser(rows, u)
  {
    SelectRemoveAt(rows, i, u, true);
    SelectRemoveAt(rows, i, u, false);
  }

  /** Removing one row keeps the primary key unique. */
  lemma RemoveAtKeepsIdsUnique(rows: seq<Memory>, i: nat)
    requires i < |rows|
    ensures IdsUnique(rows) ==> IdsUnique(RemoveAt(rows, i))
  {
    var r := RemoveAt(rows, i);
    forall p, q | 0 <= p < q < |r| && IdsUnique(rows)
      ensures r[p].id != r[q].id
    {
      var p' := if p < i then p else p + 1;
      var q' := if q < i then q else q + 1;
      assert r[p] == rows[p'] && r[q] == rows[q'];
    }
  }

  /** Tables whose rows have the same owners, position by position, give
      every user the same count. */
  lemma {:induction false} SameOwnersSameCount(a: seq<Memory>, b: seq<Memory>, u: string)
    requires |a| == |b|
    requires forall i :: 0 <= i < |a| ==> a[i].userName == b[i].userName
    ensures CountUser(a, u) == CountUser(b, u)
    decreases |a|
  {
    if |a| > 0 {
      assert forall i :: 0 <= i < |a| - 1 ==> a[1..][i] == a[i + 1] && b[1..][i] == b[i + 1];
      SameOwnersSameCount(a[1..], b[1..], u);
      CountUserCons(a, u);
      CountUserCons(b, u);
    }
  }
}

=== FILE: Store.dfy ===
/** The memory store: insertion with per-user capacity eviction
    (`store_memory`) and keyword forgetting (`forget_memory`), over the table
    as an immutable sequence of rows. */
module Store {
  import opened Text
  import opened Records

  /** Per-user capacity of the table. */
  const MaxMemories: nat := 10000

  function Min(a: nat, b: nat): (m: nat)
  {
    if a <= b then a else b
  }

  // ---------------------------------------------------------------------------
  // Insertion

  /** `INSERT INTO memories (user_name, subject, value, emotional_score, memory_type)`:
      the new row gets the next rowid, the default decay rate, and `now` as both
      creation and last-access time. */
  function Insert(rows: seq<Memory>, u: string, subject: string, value: string,
                  score: real, memoryType: int, now: Time): (r: seq<Memory>)
    ensures |r| == |rows| + 1 && r[..|rows|] == rows
    ensures CountUser(r, u) == CountUser(rows, u) + 1
    ensures Others(r, u) == Others(rows, u)
    ensures IdsUnique(rows) ==> IdsUnique(r)
    ensures forall m :: m in rows ==> m.id != r[|rows|].id
    ensures r[|rows|] == Memory(NextId(rows), u, subject, value, score, DefaultDecayRate, memoryType, now, now)
  {
    var added := Memory(NextId(rows), u, subject, value, score, DefaultDecayRate, memoryType, now, now);
    SelectAppend(rows, [added], u, true);
    SelectAppend(rows, [added], u, false);
    SelectSingle(added, u, true);
    SelectSingle(added, u, false);
    assert (rows + [added])[..|rows|] == rows;
    rows + [added]
  }

  // ---------------------------------------------------------------------------
  // Capacity eviction

  /** Position of user `u`'s row with the oldest `last_accessed`; among equally
      old rows, the first in table order. */
  function OldestIndex(rows: seq<Memory>, u: string): (i: nat)
    requires CountUser(rows, u) > 0
    ensures i < |rows| && rows[i].userName == u
    ensures forall j :: 0 <= j < |rows| && rows[j].userName == u ==> rows[i].lastAccessed <= rows[j].lastAccessed
    ensures forall j :: 0 <= j < i && rows[j].userName == u ==> rows[j].lastAccessed > rows[i].lastAccessed
    decreases |rows|
  {
    var tail := rows[1..];
    CountUserCons(rows, u);
    if CountUser(tail, u) == 0 then
      NoRowOf(tail, u);
      0
    else
      var k := 1 + OldestIndex(tail, u);
      assert forall j :: 1 <= j < |rows| ==> rows[j] == tail[j - 1];
      if rows[0].userName == u && rows[0].lastAccessed <= rows[k].lastAccessed then 0 else k
  }

  /** Rows evicted so far precede every surviving row of the user in access
      time; evicting the current oldest row keeps it that way. */
  predicate EvictedFirst(kept: seq<Memory>, evicted: seq<Memory>, u: string)
  {
    forall x, y :: x in evicted && y in kept && y.userName == u ==> x.lastAccessed <= y.lastAccessed
  }

  lemma EvictStepKeepsOrder(kept: seq<Memory>, evicted: seq<Memory>, u: string)
    requires CountUser(kept, u) > 0
    requires EvictedFirst(kept, evicted, u)
    ensures var i := OldestIndex(kept, u);
      EvictedFirst(RemoveAt(kept, i), evicted + [kept[i]], u)
  {
    var i := OldestIndex(kept, u);
    RemoveAtMembers(kept, i);
  }

  /** `DELETE FROM memories WHERE id IN (SELECT id FROM memories WHERE user_name = ?
      ORDER BY last_accessed ASC LIMIT k)`: deletes `k` of user `u`'s rows (all of
      them when there are fewer), oldest-accessed first, and reports them. */
  method EvictOldest(rows: seq<Memory>, u: string, k: nat) returns (kept: seq<Memory>, evicted: seq<Memory>)
    ensures |evicted| == Min(k, CountUser(rows, u))
    ensures CountUser(kept, u) == CountUser(rows, u) - |evicted|
    ensures forall x :: x in evicted ==> x.userName == u
    ensures multiset(kept) + multiset(evicted) == multiset(rows)
    ensures Others(kept, u) == Others(rows, u)
    ensures forall x, y :: x in evicted && y in kept && y.userName == u ==> x.lastAccessed <= y.lastAccessed
    ensures IdsUnique(rows) ==> IdsUnique(kept)
  {
    kept, evicted := rows, [];
    while |evicted| < k && CountUser(kept, u) > 0
      invariant |evicted| <= k
      invariant CountUser(kept, u) == CountUser(rows, u) - |evicted|
      invariant forall x :: x in evicted ==> x.userName == u
      invariant multiset(kept) + multiset(evicted) == multiset(rows)
      invariant Others(kept, u) == Others(rows, u)
      invariant EvictedFirst(kept, evicted, u)
      invariant IdsUnique(rows) ==> IdsUnique(kept)
      decreases k - |evicted|
    {
      var i := OldestIndex(kept, u);
      var victim := kept[i];
      var rest := RemoveAt(kept, i);
      RemoveOwnRow(kept, i, u);
      RemoveAtMultiset(kept, i);
      RemoveAtKeepsIdsUnique(kept, i);
      EvictStepKeepsOrder(kept, evicted, u);
      kept, evicted := rest, evicted + [victim];
    }
  }

  /** `after` is `before` less some of user `u`'s rows, each accessed no more
      recently than any of `u`'s rows that remain. */
  predicate EvictsOldestOf(before: seq<Memory>, after: seq<Memory>, u: string)
  {
    && multiset(after) <= multiset(before)
    && forall x :: x in multiset(before) - multiset(after) ==>
         x.userName == u && forall y :: y in after && y.userName == u ==> x.lastAccessed <= y.lastAccessed
  }

  /** Capacity enforcement after an insert: when user `u` holds more than `cap`
      rows, the surplus is deleted in one statement. */
  method EnforceCapacity(rows: seq<Memory>, u: string, cap: nat) returns (r: seq<Memory>)
    ensures CountUser(rows, u) <= cap ==> r == rows
    ensures CountUser(rows, u) > cap ==> CountUser(r, u) == cap
    ensures Others(r, u) == Others(rows, u)
    ensures EvictsOldestOf(rows, r, u)
    ensures IdsUnique(rows) ==> IdsUnique(r)
  {
    var count := CountUser(rows, u);
    r := rows;
    if count > cap {
      var evicted;
      r, evicted := EvictOldest(rows, u, count - cap);
      assert multiset(rows) - multiset(r) == multiset(evicted);
    }
  }

  /** `store_memory`: insert the row, then evict user `u`'s oldest-accessed rows
      so that `u` holds at most `MaxMemories`. The new row is evicted only when
      no row of `u` that remains was accessed before `now`. */
  method StoreMemory(rows: seq<Memory>, u: string, subject: string, value: string,
                     score: real, memoryType: int, now: Time) returns (r: seq<Memory>)
    ensures CountUser(r, u) <= MaxMemories
    ensures CountUser(rows, u) < MaxMemories ==> r == Insert(rows, u, subject, value, score, memoryType, now)
    ensures CountUser(rows, u) >= MaxMemories ==> CountUser(r, u) == MaxMemories
    ensures EvictsOldestOf(Insert(rows, u, subject, value, score, memoryType, now), r, u)
    ensures Insert(rows, u, subject, value, score, memoryType, now)[|rows|] in r
            || forall y :: y in r && y.userName == u ==> now <= y.lastAccessed
    ensures Others(r, u) == Others(rows, u)
    ensures IdsUnique(rows) ==> IdsUnique(r)
  {
    var inserted := Insert(rows, u, subject, value, score, memoryType, now);
    r := EnforceCapacity(inserted, u, MaxMemories);
    var added := inserted[|rows|];
    if added !in r {
      assert added in multiset(inserted);
      assert added in multiset(inserted) - multiset(r);
    }
  }

  // ---------------------------------------------------------------------------
  // Keyword forgetting

  /** The `WHERE` of `forget_memory`: a row of user `u` whose lower-cased subject
      or value contains the lower-cased keyword. */
  predicate Forgettable(m: Memory, u: string, keyword: string)
  {
    m.userName == u
    && (Contains(Lower(m.subject), Lower(keyword)) || Contains(Lower(m.value), Lower(keyword)))
  }

  /** `forget_memory`: deletes every forgettable row, keeping the rest in order. */
  function ForgetMemory(rows: seq<Memory>, u: string, keyword: string): (r: seq<Memory>)
    ensures forall m :: m in r <==> m in rows && !Forgettable(m, u, keyword)
    ensures |r| <= |rows|
  {
    Discard(rows, m => Forgettable(m, u, keyword))
  }

  /** Forgetting deletes only forgettable rows, every copy of them, and nothing
      of another user. */
  lemma ForgetKeepsTheRest(rows: seq<Memory>, u: string, keyword: string)
    ensures forall m :: !Forgettable(m, u, keyword) ==> multiset(ForgetMemory(rows, u, keyword))[m] == multiset(rows)[m]
    ensures forall m :: Forgettable(m, u, keyword) ==> multiset(ForgetMemory(rows, u, keyword))[m] == 0
    ensures Others(ForgetMemory(rows, u, keyword), u) == Others(rows, u)
    ensures IdsUnique(rows) ==> IdsUnique(ForgetMemory(rows, u, keyword))
  {
    var doomed := m => Forgettable(m, u, keyword);
    DiscardMultiset(rows, doomed);
    DiscardKeepsOthers(rows, doomed, u);
    DiscardKeepsIdsUnique(rows, doomed);
  }

  /** Forgetting twice with the same keyword deletes nothing more. */
  lemma ForgetIdempotent(rows: seq<Memory>, u: string, keyword: string)
    ensures ForgetMemory(ForgetMemory(rows, u, keyword), u, keyword) == ForgetMemory(rows, u, keyword)
  {
    DiscardIdempotent(rows, m => Forgettable(m, u, keyword));
  }

  /** After forgetting, no row of user `u` mentions the keyword. */
  lemma ForgetLeavesNoMatch(rows: seq<Memory>, u: string, keyword: string)
    ensures forall m :: m in OfUser(ForgetMemory(rows, u, keyword), u) ==>
              !Contains(Lower(m.subject), Lower(keyword)) && !Contains(Lower(m.value), Lower(keyword))
  {
    SelectContents(ForgetMemory(rows, u, keyword), u, true);
  }
}

=== FILE: Text.dfy ===
/** Character and string helpers shared by the emotion scorer, the write
    policy and keyword forgetting. Case mapping is ASCII-only, which is what
    SQLite's LOWER and LIKE do. Python's `str.lower` and `re.IGNORECASE` also
    map non-ASCII letters, some of them onto ASCII ones (the long s to 's',
    the Kelvin sign to 'k'); that mapping is not modelled here. */
module Text {

  /** ASCII lower-casing of one character; every other character is kept. */
  function LowerChar(c: char): (d: char)
    ensures 'A' <= c <= 'Z' ==> 'a' <= d <= 'z' && d as int - c as int == 32
    ensures !('A' <= c <= 'Z') ==> d == c
  {
    if 'A' <= c <= 'Z' then (c as int + 32) as char else c
  }

  /** Lower-cases a whole string, character by character. */
  function Lower(s: string): (r: string)
    ensures |r| == |s|
    ensures forall i :: 0 <= i < |s| ==> r[i] == LowerChar(s[i])
  {
    seq(|s|, i requires 0 <= i < |s| => LowerChar(s[i]))
  }

  /** A character that regular-expression `\w` treats as part of a word. */
  predicate IsWordChar(c: char)
  {
    ('a' <= c <= 'z') || ('A' <= c <= 'Z') || ('0' <= c <= '9') || c == '_'
  }

  predicate StartsWith(s: string, prefix: string)
  {
    |prefix| <= |s| && s[..|prefix|] == prefix
  }

  /** `sub` sits in `s` starting at position `i`. */
  predicate OccursAt(s: string, sub: string, i: int)
  {
    0 <= i && i + |sub| <= |s| && s[i..i + |sub|] == sub
  }

  /** `sub` occurs somewhere in `s` (Python's `in`, or SQL `LIKE '%sub%'`
      when `sub` holds no wildcard). */
  predicate Contains(s: string, sub: string)
  {
    exists i | 0 <= i <= |s| - |sub| :: OccursAt(s, sub, i)
  }

  /** The first `n` characters of `s`, or all of it when shorter (Python's `s[:n]`). */
  function Truncate(s: string, n: nat): (r: string)
    ensures |r| <= n && |r| <= |s|
    ensures |s| <= n ==> r == s
    ensures |s| > n ==> |r| == n
    ensures StartsWith(s, r)
  {
    if |s| <= n then s else s[..n]
  }

  /** Lowering is idempotent. */
  lemma LowerIdempotent(s: string)
    ensures Lower(Lower(s)) == Lower(s)
  {
  }

  /** Lowering does not change which characters belong to a word. */
  lemma LowerKeepsWordChars(c: char)
    ensures IsWordChar(LowerChar(c)) == IsWordChar(c)
  {
  }

  /** If two adjacent characters of `sub` never appear side by side in `s`,
      then `sub` does not occur in `s`. Used to refute concrete matches. */
  lemma {:induction false} NotContainsWithoutPair(s: string, sub: string, m: nat)
    requires m + 1 < |sub|
    requires forall k :: 0 <= k < |s| - 1 ==> !(s[k] == sub[m] && s[k + 1] == sub[m + 1])
    ensures !Contains(s, sub)
  {
    forall i | 0 <= i <= |s| - |sub|
      ensures !OccursAt(s, sub, i)
    {
      assert !(s[i + m] == sub[m] && s[i + m + 1] == sub[m + 1]);
      assert s[i..i + |sub|][m] == s[i + m];
    }
  }
}

=== FILE: WritePolicy.dfy ===
/** The write policy (`store_if_appropriate`): which prompts become memories,
    under what subject, and whether they are feelings that decay or facts that
    do not. */
module WritePolicy {
  import opened Text
  import opened Records
  import opened Store

  /** Longest subject kept from a prompt. */
  const SubjectLength: nat := 60

  datatype Decision =
    | Skip
    | Keep(subject: string, value: string, score: real, memoryType: int)

  /** The prompt asks to be remembered ("remember ..."). */
  predicate AsksToRemember(prompt: string)
  {
    StartsWith(Lower(prompt), "remember ")
  }

  /** The prompt states a feeling as "i feel"; this alone makes a memory decay. */
  predicate SaysIFeel(prompt: string)
  {
    Contains(Lower(prompt), "i feel")
  }

  predicate SaysImFeeling(prompt: string)
  {
    Contains(Lower(prompt), "i'm feeling")
  }

  /** The gate and the row `store_if_appropriate` hands to `store_memory`. */
  function WriteDecision(prompt: string, response: string, score: real): (d: Decision)
    ensures d.Keep? <==> AsksToRemember(prompt) || SaysIFeel(prompt) || SaysImFeeling(prompt)
    ensures d.Keep? ==> d.memoryType == (if SaysIFeel(prompt) then FeelingType else FactType)
    ensures d.Keep? ==> d.value == response && d.score == score
    ensures d.Keep? ==> StartsWith(prompt, d.subject) && |d.subject| == if |prompt| <= SubjectLength then |prompt| else SubjectLength
  {
    var lowered := Lower(prompt);
    if StartsWith(lowered, "remember ") || Contains(lowered, "i feel") || Contains(lowered, "i'm feeling") then
      Keep(Truncate(prompt, SubjectLength), response, score, if Contains(lowered, "i feel") then 1 else 0)
    else
      Skip
  }

  /** `store_if_appropriate`: store the kept row through `store_memory`, or
      leave the table as it is. A kept row is inserted and only the user's
      least recently accessed rows are evicted. */
  method StoreIfAppropriate(rows: seq<Memory>, u: string, prompt: string, response: string,
                            score: real, now: Time) returns (r: seq<Memory>)
    ensures WriteDecision(prompt, response, score).Skip? ==> r == rows
    ensures var d := WriteDecision(prompt, response, score);
      d.Keep? && CountUser(rows, u) < MaxMemories ==>
        r == Insert(rows, u, d.subject, d.value, d.score, d.memoryType, now)
    ensures var d := WriteDecision(prompt, response, score);
      d.Keep? ==> EvictsOldestOf(Insert(rows, u, d.subject, d.value, d.score, d.memoryType, now), r, u)
    ensures var d := WriteDecision(prompt, response, score);
      d.Keep? ==> Insert(rows, u, d.subject, d.value, d.score, d.memoryType, now)[|rows|] in r
                  || forall y :: y in r && y.userName == u ==> now <= y.lastAccessed
    ensures WriteDecision(prompt, response, score).Keep? ==> CountUser(r, u) <= MaxMemories
    ensures WriteDecision(prompt, response, score).Keep? && CountUser(rows, u) >= MaxMemories ==>
      CountUser(r, u) == MaxMemories
    ensures CountUser(rows, u) <= MaxMemories ==> CountUser(r, u) <= MaxMemories
    ensures Others(r, u) == Others(rows, u)
    ensures IdsUnique(rows) ==> IdsUnique(r)
  {
    var d := WriteDecision(prompt, response, score);
    if d.Keep? {
      r := StoreMemory(rows, u, d.subject, d.value, d.score, d.memoryType, now);
    } else {
      r := rows;
    }
  }

  // ---------------------------------------------------------------------------
  // Properties of the policy

  /** The gate and the memory type ignore the prompt's case; only the
      subject keeps it. */
  lemma DecisionIgnoresCase(prompt: string, response: string, score: real)
    ensures WriteDecision(Lower(prompt), response, score).Keep? == WriteDecision(prompt, response, score).Keep?
    ensures WriteDecision(prompt, response, score).Keep? ==>
      WriteDecision(Lower(prompt), response, score).memoryType == WriteDecision(prompt, response, score).memoryType
  {
    LowerIdempotent(prompt);
  }

  // ---------------------------------------------------------------------------
  // Worked examples

  /** "i'm feeling" passes the gate, but it does not contain "i feel", so the
      memory is a fact that never decays. */
  lemma ImFeelingIsAFact()
    ensures WriteDecision("I'm feeling great", "Glad to hear it", 0.7) == Keep("I'm feeling great", "Glad to hear it", 0.7, FactType)
  {
    var p := "I'm feeling great";
    var low := "i'm feeling great";
    assert Lower(p) == low;
    assert OccursAt(low, "i'm feeling", 0);
    assert !Contains(low, "i feel") by {
      NotContainsWithoutPair(low, "i feel", 0);
    }
  }

  /** "i feel" is matched as a bare substring, even across a word boundary. */
  lemma SubstringIFeelIsAFeeling()
    ensures WriteDecision("Sushi feels great", "Enjoy", 0.7).Keep?
    ensures WriteDecision("Sushi feels great", "Enjoy", 0.7).memoryType == FeelingType
  {
    var p := "Sushi feels great";
    var low := "sushi feels great";
    assert Lower(p) == low;
    assert OccursAt(low, "i feel", 4);
  }

  lemma LowerOfRememberAda()
    ensures Lower("Remember my name is Ada") == "remember my name is ada"
  {
  }

  /** An explicit request is kept as a fact, subject and all. */
  lemma RememberIsAFact()
    ensures WriteDecision("Remember my name is Ada", "Noted", 0.0) == Keep("Remember my name is Ada", "Noted", 0.0, FactType)
  {
    var p := "Remember my name is Ada";
    var low := "remember my name is ada";
    assert Lower(p) == low by {
      LowerOfRememberAda();
    }
    assert StartsWith(low, "remember ") by {
      assert low[..9] == "remember ";
    }
    assert !Contains(low, "i feel") by {
      NotContainsWithoutPair(low, "i feel", 0);
    }
  }

  /** "remember" needs the trailing space: the bare word is not stored. */
  lemma BareRememberIsSkipped()
    ensures WriteDecision("Remember", "What?", 0.0) == Skip
  {
    var low := "remember";
    assert Lower("Remember") == low;
    assert !Contains(low, "i feel") by {
      NotContainsWithoutPair(low, "i feel", 0);
    }
  }

  /** A long prompt is stored under its first 60 characters. */
  lemma LongSubjectIsCut(prompt: string, response: string, score: real)
    requires |prompt| > SubjectLength
    requires WriteDecision(prompt, response, score).Keep?
    ensures WriteDecision(prompt, response, score).subject == prompt[..SubjectLength]
  {
  }
}
